=== FILE: README.md ===
# Load-test metrics harness — a Dafny model

This project models the bookkeeping core of a Locust-based load-test harness.
Every request the load engine completes reaches a `MetricsTracker`. Only requests
named `OBSERVE` are aggregated:

- successes and failures are counted;
- a run of consecutive failures becomes an *outage* whose duration is recorded when the next success arrives;
- the backend server that answered is read from the response body and credited with a hit.

With the step load shape enabled, a background *step SLA monitor* reports each finished load step:

- the step's fail rate;
- its p95/p99 latency, once the step holds enough samples.

When p95 exceeds the SLA, the monitor stops the run. At the end of the run the summary shows:

- the outages, filtered, ranked by percentile, with the longest ones listed;
- the hosts ranked by hits;
- the hosts present at start and those that appeared later;
- the HTTP status codes of the recorded errors, ordered by count.

The model has four layers.

- **Pure helpers.** `Classify` decides whether a request failed and which server answered. `Stats` holds the ceiling-rank percentile.
- **Request state machine.** `Tracker` is an immutable record. `collect_metrics` is a pure transition on it, and the wall-clock time `now` is a parameter.
- **Step monitor.** `StepMonitor` models the boundary loop as a pure function of the window, the last step index, the current step and the configuration. `MonitorPoll` is one wake-up of the monitor.
- **Summary lists.** `OutageReport`, `LoadBalance` and `HttpCodes` compute the summary lists without printing them.

Three more modules cover the rest:

- `Reliability` holds the `OBSERVE` figures of the reliability section: request and failure counts, error duration and success rate.
- `Run` replays a sequence of request and monitor events and proves the whole-run invariants.
- `StepShape`, `Settings` and `FaultInjection` cover the locustfile:
  - the load shape's `tick`;
  - the normalisation of the observe path and the host URL;
  - the sent count of the kill-all pass.
- `Seqs` and `Arith` hold shared sequence and arithmetic facts. Python's stable `sorted` is one generic insertion sort, `Seqs.SortBy`, which the whole model uses.

Time and latencies are exact `real`s. Python dictionaries keep insertion order, so the host table has a `hosts` sequence next to its maps. The regular expressions are function parameters:

- `search` stands for the body pattern, after its captured token is stripped;
- `codeOf` stands for `_HTTP_CODE_RE`.

The summary keeps outages with `d >= OUTAGE_MIN_SEC` (locust_metrics.py:459), so an outage exactly at the threshold counts as significant (`OutageReport.Kept`).

## Model

| member | source | states |
|---|---|---|
| Classify.IsFailure | tests/performance/locust_metrics.py:36-43 | A request fails exactly when it raised, got no response, or got status 400 or more. A success therefore has a response whose status is absent (read as 0) or below 400. |
| Classify.ServerIdOf | tests/performance/locust_metrics.py:23-34 | A missing response, a missing body or an empty body yields no server id. Otherwise the id is the body pattern's result. |
| Stats.Percentile | tests/performance/locust_metrics.py:45-52 | An empty list has no percentile. Otherwise the percentile is always one of the list's values. |
| Stats.RankIndex | tests/performance/locust_metrics.py:50-51 | The index read is always a valid position of the list. |
| Stats.RankIndexUnclamped | tests/performance/locust_metrics.py:50-51 | For a quantile in (0, 1] the clamp never bites: the index is `ceil(q*n) - 1`. |
| Stats.PercentileIsNearestRank | tests/performance/locust_metrics.py:45-52 | On a sorted list the percentile is the nearest-rank value. At least `q*n` values are at or below it, fewer than `q*n` lie strictly below it, and fewer than `q*n` are at or below any smaller value. |
| Stats.PercentileMonotone | tests/performance/locust_metrics.py:45-52 | A higher quantile never reads a smaller value, so p50 <= p95 <= p99. |
| Stats.PercentileOfSortedCopy | tests/performance/locust_metrics.py:45-52 | The percentile of the sorted copy has the nearest-rank property for the original, unsorted values, for any quantile in (0, 1]. |
| Stats.PercentileExceeds | tests/performance/locust_metrics.py:45-52 | The q-percentile is above a limit exactly when fewer than `q*n` values are within the limit. |
| Stats.PercentileExample | tests/performance/locust_metrics.py:45-52 | Worked instance: p95 of five values is the largest, and p95 of 25 values reads index 23. |
| Stats.CountAtMostSorted | tests/performance/locust_metrics.py:202 | Sorting does not change how many values lie at or below a bound. |
| Stats.CountBelowSorted | tests/performance/locust_metrics.py:202 | Sorting does not change how many values lie strictly below a bound. |
| Stats.NearestRankIsLeast | tests/performance/locust_metrics.py:45-52 | A nearest-rank value is the least value reaching its quota: fewer than the quota lie at or below anything smaller. |
| Tracker.Init | tests/performance/locust_metrics.py:62-92 | The fresh tracker satisfies the tracker invariant. It has zero counters, no error times, no outage, no start time and the monitor off. Its host table is empty, the step window is empty with step index 1, and there is no step result and no SLA stop. |
| Tracker.Reset | tests/performance/locust_metrics.py:246-280 | Reset clears every counter, both error times, the outage state, the host table, the step window and the step log, and records the start time. The step index restarts at 1. The monitor runs if and only if the step shape and the SLA stop are both on and the spawner exists. |
| Tracker.OnFailure | tests/performance/locust_metrics.py:292-302 | A failure adds one to the failure counters. `first_error_time` is set only if unset, and `last_error_time` is always `now`. An outage opens only if none is open. The latency window and the host table are untouched, and the invariant is kept. |
| Tracker.OnSuccess | tests/performance/locust_metrics.py:304-316 | A success adds one to the success counters and appends its latency. An open outage is closed with exactly one duration `now - start`. A non-empty server id gains one hit. It gets a first-seen time, and is appended to the host order, only on first sight. Without an id the host table is unchanged. The invariant is kept. |
| Tracker.CountSuccess | tests/performance/locust_metrics.py:304-310 | The counting half of a success: counters, window and outage close. The host table is left alone. |
| Tracker.RecordHit | tests/performance/locust_metrics.py:313-316 | The id's count grows by one. Its first-seen time is recorded only on first sight. The first-seen list grows only for a new id. The host-table invariant is kept. |
| Tracker.CollectMetrics | tests/performance/locust_metrics.py:282-316 | A request not named `OBSERVE` changes nothing. An `OBSERVE` request moves exactly one of the two run counters and one of the two window counters, chosen by `is_failure`. |
| Tracker.FlushOutage | tests/performance/locust_metrics.py:339-343 | Afterwards no outage is open. Exactly one duration is appended when one was open; otherwise nothing changes. |
| Tracker.FlushOutageTwice | tests/performance/locust_metrics.py:339-343 | A second flush appends nothing, and one flush appends at most one duration. |
| StepMonitor.FailRate | tests/performance/locust_metrics.py:196-198 | The fail rate lies in [0, 100]. It is 0 for an empty or failure-free window and 100 when all requests failed. `rate * total == 100 * fails`. |
| StepMonitor.StepPercentiles | tests/performance/locust_metrics.py:200-204 | p95/p99 exist exactly when the window holds at least `SLA_STEP_MIN_SAMPLES` latencies. They are then window values with p95 <= p99, and each is the nearest-rank value of the window's latencies: at least 95% (99%) of them are at or below it, and fewer lie strictly below it. |
| StepMonitor.StepQuantilesAreNearestRank | tests/performance/locust_metrics.py:202-204 | `_percentile(sorted(rts), 0.95)` and `0.99` are the nearest-rank values of the unsorted window. |
| StepMonitor.StepResultOf | tests/performance/locust_metrics.py:195-204 | A step result carries its step, `succ + fail` as the observed total, and the window's fail rate. The percentiles are present exactly with enough samples. Then p95 <= p99, and both are the nearest-rank values of the window's latencies. |
| StepMonitor.BreachMeansTooFewWithinSla | tests/performance/locust_metrics.py:200-211 | A step breaches the SLA exactly when it has enough samples and fewer than 95% of them are within `SLA_P95_MS`. |
| StepMonitor.FlushSteps | tests/performance/locust_metrics.py:195-233 | Steps `last .. cur-1` are reported in order, each once. The first is the window's own step result; every later one is a quiet step, with nothing observed, a zero fail rate and no percentiles. A stop is recorded exactly when the first step breaches; the index and window then stay as they were. Without a stop the window is cleared and the index ends at `cur`. |
| StepMonitor.ApplyFlush | tests/performance/locust_metrics.py:211-233 | A boundary pass changes only monitor state. The log gains exactly the pass's results, after the old entries. The window and the index become the pass's. A stop record is stored, and the monitor exits, exactly when the pass stopped. |
| StepMonitor.FlushReportsFigures | tests/performance/locust_metrics.py:195-233 | The results a pass appends are the window's step result for the last index, then quiet steps for each later crossed step. A breach of that first result is stored as its stop snapshot, taken at the wake-up time. |
| StepMonitor.Exit | tests/performance/locust_metrics.py:187-189 | The monitor returning changes nothing but its own state. |
| StepMonitor.ApplyFlushKeepsValid | tests/performance/locust_metrics.py:195-233 | A boundary pass from a running monitor keeps the step log numbered `1..n`, with step `n+1` next. |
| StepMonitor.Advance | tests/performance/locust_metrics.py:190-233 | A wake-up with the run going on: before the next boundary nothing changes. After crossing boundaries the index moves to the current step, the log grows by one result per crossed step, and the window is cleared. The monitor exits instead exactly when the first step to flush breaches the SLA; it then adds that one result and records the stop for that step with its p95 above the SLA. |
| StepMonitor.AdvanceReportsFigures | tests/performance/locust_metrics.py:190-233 | At a wake-up past the last index, the first logged result is the window's own step result, and the later ones are quiet steps. A stop, when one is recorded, is that first result's snapshot at the wake-up time. |
| StepMonitor.Idle | tests/performance/locust_metrics.py:181-189 | Without a runner the monitor waits and nothing changes. A stopping or stopped runner makes it return. Neither case reports a step or touches request state. |
| StepMonitor.MonitorPoll | tests/performance/locust_metrics.py:181-233 | A wake-up never touches request state and only extends the step log. A returned monitor, one that already stopped the run, or a wake-up before the runner exists (the source sleeps and retries) changes nothing. A stopping or stopped runner ends the monitor without a report. With a running runner the wake-up flushes up to the current step as `Advance` states. A new SLA stop records a p95 above the SLA, for the step the monitor was on, with one new result. |
| StepMonitor.MonitorPollReportsFigures | tests/performance/locust_metrics.py:181-233 | A wake-up with the run going on logs and records exactly the figures `AdvanceReportsFigures` states. |
| Arith.StepOf | tests/performance/locust_metrics.py:191-192 | The 1-based step `floor(elapsed / stepTime) + 1` brackets the elapsed time between `(k-1)*stepTime` and `k*stepTime`. |
| StepShape.Tick | tests/performance/locustfile.py:244-249 | `tick` returns None exactly when the run time exceeds the time limit. Otherwise it returns the configured spawn rate. |
| StepShape.TickIsStepCount | tests/performance/locustfile.py:248-249 | While the run lasts, the user target is `k * STEP_USERS` for the step `k` the run time lies in. It is therefore at least one step's worth of users for a non-negative `STEP_USERS`, and at most one step's worth for a negative one. |
| StepShape.TickMonotone | tests/performance/locustfile.py:248-249 | The user target never falls as run time grows. |
| Settings.SkipSpaces | tests/performance/locustfile.py:72 | Scanning forward stops at the first non-whitespace character and passes only whitespace. |
| Settings.SkipSpacesBack | tests/performance/locustfile.py:72 | Scanning backward stops after the last non-whitespace character and passes only whitespace. |
| Settings.Strip | tests/performance/locustfile.py:72 | `strip` returns a slice of the input with non-whitespace ends. Everything cut before and after the slice is whitespace. |
| Settings.StripUnpads | tests/performance/locustfile.py:72 | Whitespace padded around a string with non-whitespace ends is exactly what `strip` removes. |
| Settings.StripIdempotent | tests/performance/locustfile.py:72 | Stripping twice is stripping once. |
| Settings.ObservePath | tests/performance/locustfile.py:72-73 | The observe path always starts with `/` and never ends in whitespace. A stripped value starting with `/` is kept; any other gets `/` in front. A missing variable defaults to `/`. |
| Settings.ObservePathIdempotent | tests/performance/locustfile.py:72-73 | Normalising a normalised path changes nothing. |
| Settings.HostWithScheme | tests/performance/locustfile.py:116-117 | The host gets `http://` in front exactly when it is non-empty and does not start with `http`. Otherwise, including no URL at all, it is unchanged. |
| Settings.HostWithSchemeIdempotent | tests/performance/locustfile.py:116-117 | A prefixed non-empty host starts with `http`, so prefixing twice adds nothing. |
| StepShape.DefaultShapeExample | tests/performance/locustfile.py:244-249 | Worked instance under the default settings: 50 users at the start and until 180 s, 100 from 180 s, 250 in the fifth step at 720 s, and none after the 720 s limit. |
| FaultInjection.KillAllPass | tests/performance/locustfile.py:193-207 | The pass returns the number of attempts, among the first `max(0, n)`, whose request did not raise. That count is at most `max(0, n)`. |
| Seqs.Max | tests/performance/locust_metrics.py:456 | `max` of a non-empty list is an element of it and bounds every element. |
| Seqs.AtLeast | tests/performance/locust_metrics.py:459 | The filter keeps exactly the occurrences of values at or above the threshold. |
| Seqs.SortBy | tests/performance/locust_metrics.py:386 | Sorting returns a permutation of the input, ordered by the key. |
| Seqs.SortByIsStable | tests/performance/locust_metrics.py:386 | The sort is stable: for every key value, the elements with that key keep their input order. |
| Seqs.Largest | tests/performance/locust_metrics.py:472 | `sorted(s, reverse=True)[:n]` has `min(n, len(s))` elements, largest first, drawn from `s`. |
| Seqs.LargestKeepsTheLargest | tests/performance/locust_metrics.py:472 | No element left out of the top list is larger than an element on it. |
| OutageReport.KeptEmpty | tests/performance/locust_metrics.py:459-462 | The filtered list is empty exactly when every outage is shorter than `OUTAGE_MIN_SEC`. |
| OutageReport.KeptAreLongEnough | tests/performance/locust_metrics.py:459 | Every kept duration is a recorded outage at least `OUTAGE_MIN_SEC` long. |
| OutageReport.Summarize | tests/performance/locust_metrics.py:448-482 | "No outage" exactly when none was recorded. "Micro-outages only" exactly when all are below the threshold. Otherwise the report gives the kept count, total and max, with p50 <= p95 <= p99 <= max, all kept durations. The top list has `min(OUTAGE_TOP_N, count)` kept durations, longest first. The raw figures are always those of all outages. |
| OutageReport.OutagePercentilesAreNearestRank | tests/performance/locust_metrics.py:468-471 | The reported p50/p95/p99 are the nearest-rank values of the kept durations. |
| OutageReport.TopListHoldsTheLongest | tests/performance/locust_metrics.py:472 | No kept outage left off the top list is longer than one on it. |
| HttpCodes.AddOccurrences | tests/performance/locust_metrics.py:136 | `counts[code] += occ` adds `occ` to that code's count and to the total, and to no other code. |
| HttpCodes.AddOccurrencesCodes | tests/performance/locust_metrics.py:136 | Adding occurrences adds the code to the table's codes and no other. |
| HttpCodes.AddOccurrencesAppends | tests/performance/locust_metrics.py:136 | A code not yet in the table is appended at its end, so the table keeps first-seen order. |
| HttpCodes.AddOccurrencesDistinct | tests/performance/locust_metrics.py:136 | Each code stays in the table once. |
| HttpCodes.Tally | tests/performance/locust_metrics.py:126-137 | The tally has one entry per code some matching row carries, and no other entries. Each entry holds the occurrences the rows attribute to its code. The counts sum to the matched total. |
| HttpCodes.RankKeyOrder | tests/performance/locust_metrics.py:142 | The one-number key orders by count, highest first, then by code. This is the `(-count, code)` key. |
| HttpCodes.Summarize | tests/performance/locust_metrics.py:121-144 | Nothing is reported exactly when the matched total is at most 0. Otherwise the total is reported, and the list is a permutation of the tally ordered by count, highest first, then by code. |
| HttpCodes.SummaryListsEachCodeOnce | tests/performance/locust_metrics.py:126-142 | `(c, n)` is listed exactly when some row carries code `c` and the rows attribute `n` occurrences to it. |
| LoadBalance.RecordHitAddsOne | tests/performance/locust_metrics.py:314 | Each credited hit adds exactly one to `sum(instance_hits.values())`. |
| LoadBalance.Ranking | tests/performance/locust_metrics.py:386 | The ranking is a permutation of the items, by hits highest first. Hosts with equal hits keep their first-seen order. |
| LoadBalance.InitialHosts | tests/performance/locust_metrics.py:394 | The initial set holds exactly the hosts first seen by the cutoff. In a consistent table they are all hosts of the table, and none of them is listed as a late arrival. |
| LoadBalance.LateHosts | tests/performance/locust_metrics.py:395 | The late list holds exactly the hosts first seen after the cutoff, with their first-seen times. Distinct table hosts give distinct list entries. |
| LoadBalance.LateHostsInOrder | tests/performance/locust_metrics.py:395 | The late list keeps first-seen order: of any two entries, the earlier one's host stands earlier in the host table. The table is filled in the order of first sight, and the dict keeps that order. |
| LoadBalance.ScalingActivity | tests/performance/locust_metrics.py:392-396 | The cutoff is start plus `INITIAL_HOST_WINDOW_SEC`. The late hosts are a permutation of the late list, in order of arrival time. Hosts with equal arrival times keep their first-seen order. |
| LoadBalance.ScalingPartitionsHosts | tests/performance/locust_metrics.py:393-396 | Every host lands on exactly one side of the cutoff, and nothing else is listed. |
| LoadBalance.Report | tests/performance/locust_metrics.py:379-407 | There is no host data exactly when the total hits are 0. Otherwise the report has the total, the ranking and the distinct count. The scaling split is present exactly when the start time is known. |
| LoadBalance.NoHostDataExactlyWhenNoHosts | tests/performance/locust_metrics.py:381-390 | With the host table intact there is no host data exactly when no host was credited. The distinct count is then the number of hosts seen. |
| Run.PlayKeepsValid | tests/performance/locust_metrics.py:282-316 | Any sequence of requests and monitor wake-ups keeps the tracker invariant. |
| Run.CountersPartitionObserve | tests/performance/locust_metrics.py:292-305 | Over any run, failures plus successes grow by exactly the number of `OBSERVE` requests, and the failure count grows by the number of failed ones. |
| Run.OutagesOnlyGrow | tests/performance/locust_metrics.py:308-309 | Recorded outages are never removed or changed. |
| Run.OutageOpenAfterFailure | tests/performance/locust_metrics.py:300-310 | An outage is open exactly when the last `OBSERVE` request failed. |
| Run.ClosedOutagesAreRecoveries | tests/performance/locust_metrics.py:308-310 | One outage is recorded per success that follows a failure. |
| Run.OutagesFollowFailureRuns | tests/performance/locust_metrics.py:300-310 | Recorded outages plus the open one equal the number of runs of consecutive failures. |
| Run.RunsAreRecoveriesAndOpenRun | tests/performance/locust_metrics.py:300-310 | Each failure run either ended in a success or is still open at the end. |
| Run.OutagesAtRunEnd | tests/performance/locust_metrics.py:339-343 | After reset, the run and the final flush, there is one outage per run of consecutive failures. |
| Run.SlaStopIsFinal | tests/performance/locust_metrics.py:211-222 | Once the SLA stop is recorded, nothing changes it, the step log or the step index again. The monitor stays exited, so the stop happens at most once. |
| Run.StepsReportedOnce | tests/performance/locust_metrics.py:195-233 | After reset, the step log always holds steps `1..n` in order. Step `n+1` is next unless the run was stopped at step `n`. |
| Reliability.ClientViewOf | tests/performance/locust_metrics.py:420-442 | The client view counts successes plus failures and the failures. The error duration is `last - first`, shown only when both error times are truthy (neither `None` nor 0). The success rate is shown only when there was a request; it lies in [0, 100], satisfies `rate * total == 100 * successes`, and is 100 exactly when nothing failed. |
| Arith.PercentBounds | tests/performance/locust_metrics.py:441-442 | `part / total * 100` lies in [0, 100] and is 100 exactly when the part is the whole; the success rate and the step fail rate are both of this form. |
| Run.ErrorTimesMarkFailures | tests/performance/locust_metrics.py:292-298 | The error times are set exactly when some `OBSERVE` request failed, or they were set before. The first error time never moves once set. |
| Run.ErrorTimesOrdered | tests/performance/locust_metrics.py:296-298 | With events in time order, both error times are set together, and first <= last <= the latest event time. |
| Run.ClientViewOfRun | tests/performance/locust_metrics.py:420-442 | After reset and a run in time order, the client view counts the run's `OBSERVE` requests and failures. An error duration is shown only if something failed, and it is never negative. The success rate is shown exactly when there was a request, and is 100 exactly when none failed. |
| Run.HitsAtMostSuccesses | tests/performance/locust_metrics.py:304-316 | After reset, the total hits never exceed the number of successful `OBSERVE` requests. |

## Left out

- Printing, string formatting, `_now_str` and `time.strftime` are presentation. Each summary is modelled as the data it would print.
- Locust itself is outside the model:
  - event registration;
  - runner polling and `runner.quit()`;
  - gevent `spawn` and `sleep`;
  - the built-in statistics.
- Concurrency: request events and monitor wake-ups arrive one at a time as `Run.Event`s, which is how the cooperative scheduler delivers them. The time of each event is a parameter.
- `_iter_error_rows` reads the engine's error table. Its rows (name, method, message, occurrences) are an input of `HttpCodes.Summarize`.
- Regular-expression matching is abstract.
  - The body patterns of `extract_server_id_from_body` are the parameter `search`.
  - `_HTTP_CODE_RE` is the parameter `codeOf`.
  - A matched code is an integer 100–599. The pattern only matches three-digit codes starting with 1–5, and those order the same as text and as numbers. Non-ASCII digits, which Python's `\d` also accepts, are not modelled.
- Floating point: times, latencies, rates and `q * n` are exact rationals, so float rounding in `ceil(q * n)` and in sums is not modelled.
- Environment and file configuration loading (`get_alb_url`, `.env`, `os.getenv` parsing) is I/O. The raw values arrive as parameters, and `Settings.DefaultConfig` holds the defaults.
- `print_top_failures_only` is not modelled. It filters the error rows to `OBSERVE`, sorts them by occurrences and keeps the first `TOP_N_FAILURES`.
- `_print_config` and `_print_stop_reason` are not modelled. They only format the configuration and the stored SLA-stop record.
- `_print_reliability_metrics`: the `OBSERVE` request and failure counts, the error duration and the success rate are modelled (`Reliability.ClientViewOf`). The "ALL" totals and the p95/p99 and SLA verdict of that section come from Locust's built-in statistics, which are outside the model.
- The fault-injection user outside the kill-all pass is not modelled: the probe request, the `single` mode and the idle loop. Whether each kill request raised is an input of `FaultInjection.KillAllPass`.
- The initial hosts are printed sorted by name. The model keeps them as a set (`LoadBalance.InitialHosts`), since the order is only presentation.
- Reset does not stop a monitor spawned by an earlier start; a new run starts from a fresh tracker.
- The monitor's `time.time()` fallback for a missing start time is not modelled. The monitor always starts after `reset_metrics`, which records the start time, so `MonitorPoll` leaves a tracker without a start time unchanged.
- StepShape.Tick: a zero `STEP_TIME` makes `tick` raise `ZeroDivisionError` while the run lasts. The model requires a non-zero step time there instead of modelling the exception.
- StepShape.TickIsStepCount: stated only for a positive `STEP_TIME` and a non-negative run time. For a non-positive `STEP_TIME` or a negative run time the step is still computed (`Tick`), but `floor` no longer places the run time inside step `k`'s interval, so the bracketing claim does not hold.
- StepMonitor.StepResultOf: the approximate user count `step * STEP_USERS` is stored in the result but not stated in the contract.
- StepMonitor.MonitorPoll: a zero `STEP_TIME` raises in the monitor and ends it; the model ends the monitor without reporting anything. A negative `STEP_TIME` goes through the general case. For a non-negative elapsed time, `floor(rt / STEP_TIME) + 1` is then at most 1, so no boundary is ever crossed. Each wake-up changes nothing. In the source the next boundary `t0 + idx * STEP_TIME` (locust_metrics.py:236) is then already past, so the monitor polls again at once without sleeping. The model's wake-ups are given by the caller, so this busy polling is not modelled.

=== FILE: arith.dfy ===
/** Small facts of ordered-field and integer arithmetic used by the step computations. */
module Arith {

  lemma DivBounds(x: real, d: real, f: int)
    requires d > 0.0 && x >= 0.0
    requires f as real <= x / d < (f + 1) as real
    ensures f >= 0
    ensures f as real * d <= x < (f + 1) as real * d
  {
    assert (x / d) * d == x;
    MulLeRight(f as real, x / d, d);
    MulLtRight(x / d, (f + 1) as real, d);
  }

  lemma MulLeRight(a: real, b: real, d: real)
    requires a <= b && d > 0.0
    ensures a * d <= b * d
  {
    assert (b - a) * d >= 0.0;
  }

  lemma MulLtRight(a: real, b: real, d: real)
    requires a < b && d > 0.0
    ensures a * d < b * d
  {
    assert (b - a) * d > 0.0;
  }

  lemma MulMonotone(a: int, b: int, c: int)
    requires a <= b && c >= 0
    ensures a * c <= b * c
  {
    assert (b - a) * c >= 0;
  }

  /**
    The 1-based step that `elapsed` seconds fall in, `floor(elapsed / stepTime) + 1`
    (Python's `//` on a float floors), lies between `(k - 1) * stepTime` and `k * stepTime`.
   */
  function StepOf(elapsed: real, stepTime: int): (k: int)
    requires stepTime != 0
    ensures stepTime > 0 && elapsed >= 0.0 ==>
              k >= 1 && (k - 1) as real * stepTime as real <= elapsed < k as real * stepTime as real
  {
    var f := (elapsed / stepTime as real).Floor;
    if stepTime > 0 && elapsed >= 0.0 then
      DivBounds(elapsed, stepTime as real, f);
      f + 1
    else
      f + 1
  }

  /** The percentage `part / total * 100` lies in `[0, 100]` and is 100 exactly when the part is the whole. */
  lemma PercentBounds(part: nat, total: nat)
    requires 0 < total && part <= total
    ensures var rate := (part as real / total as real) * 100.0;
            && rate * total as real == 100.0 * part as real
            && 0.0 <= rate <= 100.0
            && (rate == 100.0 <==> part == total)
  {
    var n := total as real;
    var q := part as real / n;
    assert q * n == part as real;
    assert q <= 1.0 by {
      if q > 1.0 {
        assert q * n > 1.0 * n;
      }
    }
    if q * 100.0 == 100.0 {
      assert q == 1.0;
    }
  }
}

=== FILE: classify.dfy ===
/**
  Per-request classification: whether a request failed, and which backend
  server answered it. The body pattern (`Host:`/`Hostname:` followed by a
  token) is a parameter `search`, standing for the first match of the
  compiled patterns with its captured token already stripped.
 */
module Classify {
  import opened Wrappers

  /** The parts of a response object the hook reads; either attribute may be missing. */
  datatype Response = Response(statusCode: Option<int>, text: Option<string>)

  /** `getattr(response, "status_code", 0)`. */
  function StatusOf(r: Response): int
  {
    if r.statusCode.Some? then r.statusCode.value else 0
  }

  /**
    `is_failure(exception, response)`: a request fails when it raised, when no
    response came back, or when the status code is 400 or more; a response
    without a status code counts as status 0, hence as a success.
   */
  function IsFailure(exception: Option<string>, response: Option<Response>): (failed: bool)
    ensures failed <==> exception.Some? || response.None? || StatusOf(response.value) >= 400
    ensures !failed ==> exception.None? && response.Some?
                        && (response.value.statusCode.None? || response.value.statusCode.value < 400)
  {
    if exception.Some? then true
    else if response.None? then true
    else StatusOf(response.value) >= 400
  }

  /**
    `extract_server_id_from_body(response)`: no id without a response or
    with a missing or empty body; otherwise whatever the pattern search finds.
   */
  function ServerIdOf(response: Option<Response>, search: string -> Option<string>): (id: Option<string>)
    ensures response.None? ==> id.None?
    ensures response.Some? && (response.value.text.None? || response.value.text.value == []) ==> id.None?
    ensures response.Some? && response.value.text.Some? && response.value.text.value != []
            ==> id == search(response.value.text.value)
  {
    match response
    case None => None
    case Some(r) =>
      if r.text.None? || r.text.value == [] then None else search(r.text.value)
  }
}

=== FILE: fault_injection.dfy ===
/**
  The "kill all" fault-injection pass: `n` attempts at the kill endpoint,
  counting the ones whose request call did not raise. Whether attempt `i`
  raised is an input (`raised(i)`), since the HTTP call itself is outside
  the model.
 */
module FaultInjection {

  /** The attempts among the first `count` that went through. */
  function Delivered(count: nat, raised: nat -> bool): set<nat>
  {
    set i: nat | i < count && !raised(i)
  }

  function NonNegative(n: int): nat
  {
    if n > 0 then n else 0
  }

  /** `_kill_all_pass(n, ...)`: loops `max(0, n)` times and returns how many requests did not raise. */
  method KillAllPass(n: int, raised: nat -> bool) returns (sent: nat)
    ensures sent <= NonNegative(n)
    ensures sent == |Delivered(NonNegative(n), raised)|
  {
    sent := 0;
    var i: nat := 0;
    while i < NonNegative(n)
      invariant i <= NonNegative(n)
      invariant sent == |Delivered(i, raised)|
      invariant sent <= i
    {
      DeliveredStep(i, raised);
      if !raised(i) {
        sent := sent + 1;
      }
      i := i + 1;
    }
  }

  lemma DeliveredStep(i: nat, raised: nat -> bool)
    ensures |Delivered(i + 1, raised)| == |Delivered(i, raised)| + (if raised(i) then 0 else 1)
  {
    var before, after := Delivered(i, raised), Delivered(i + 1, raised);
    if raised(i) {
      assert after == before by {
        forall j | j in after ensures j in before {
        }
      }
    } else {
      assert i !in before;
      assert after == before + {i} by {
        forall j | j in after ensures j in before + {i} {
        }
      }
    }
  }
}

=== FILE: http_codes.dfy ===
/**
  The `[HTTP Error Codes]` tally: over the engine's error rows for one
  request name, every row whose message holds a status code adds its
  occurrence count to that code; codes are listed by count, highest first,
  ties broken by the code, with the grand total. Nothing is reported when
  the total is not positive.
 */
module HttpCodes {
  import opened Wrappers
  import opened Seqs

  /**
    A status code the pattern `\b([1-5]\d{2})\b` can match: three digits,
    the first from 1 to 5. Read as text they compare like numbers.
   */
  type HttpCode = c: int | 100 <= c < 600 witness 100

  /** One entry of the engine's error table: request name, HTTP method, message, occurrences. */
  datatype ErrorRow = ErrorRow(name: string, verb: string, message: string, occurrences: int)

  datatype CodeCount = CodeCount(code: HttpCode, count: int)

  /** The code a row contributes, if its name matches and its message holds one. */
  function CodeOfRow(row: ErrorRow, onlyName: string, codeOf: string -> Option<HttpCode>): Option<HttpCode>
  {
    if row.name != onlyName then None else codeOf(row.message)
  }

  // ---- Reference definitions, row by row

  /** The occurrences the rows attribute to `c`. */
  function OccurrencesOf(rows: seq<ErrorRow>, onlyName: string, codeOf: string -> Option<HttpCode>, c: HttpCode): int
  {
    if |rows| == 0 then 0
    else
      var last := rows[|rows| - 1];
      OccurrencesOf(rows[..|rows| - 1], onlyName, codeOf, c)
      + (if CodeOfRow(last, onlyName, codeOf) == Some(c) then last.occurrences else 0)
  }

  /** Whether some row attributes occurrences to `c`. */
  predicate Seen(rows: seq<ErrorRow>, onlyName: string, codeOf: string -> Option<HttpCode>, c: HttpCode)
  {
    exists i :: 0 <= i < |rows| && CodeOfRow(rows[i], onlyName, codeOf) == Some(c)
  }

  /** The occurrences of every row that carries a code. */
  function MatchedTotal(rows: seq<ErrorRow>, onlyName: string, codeOf: string -> Option<HttpCode>): int
  {
    if |rows| == 0 then 0
    else
      var last := rows[|rows| - 1];
      MatchedTotal(rows[..|rows| - 1], onlyName, codeOf)
      + (if CodeOfRow(last, onlyName, codeOf).Some? then last.occurrences else 0)
  }

  // ---- The tally table (`counts`, a `defaultdict(int)`)

  function Codes(entries: seq<CodeCount>): set<HttpCode>
  {
    set e | e in entries :: e.code
  }

  predicate DistinctCodes(entries: seq<CodeCount>)
  {
    forall i, j :: 0 <= i < j < |entries| ==> entries[i].code != entries[j].code
  }

  /** The count recorded for `c`, zero when absent. */
  function CountOf(entries: seq<CodeCount>, c: HttpCode): int
  {
    if |entries| == 0 then 0
    else if entries[0].code == c then entries[0].count
    else CountOf(entries[1..], c)
  }

  function SumCounts(entries: seq<CodeCount>): int
  {
    if |entries| == 0 then 0 else entries[0].count + SumCounts(entries[1..])
  }

  /**
    `counts[code] += occ`: an existing entry grows in place; a new code is
    appended, so the table keeps first-seen order.
   */
  function AddOccurrences(entries: seq<CodeCount>, code: HttpCode, occ: int): (r: seq<CodeCount>)
    ensures forall c :: CountOf(r, c) == CountOf(entries, c) + (if c == code then occ else 0)
    ensures SumCounts(r) == SumCounts(entries) + occ
  {
    if |entries| == 0 then [CodeCount(code, occ)]
    else if entries[0].code == code then [entries[0].(count := entries[0].count + occ)] + entries[1..]
    else [entries[0]] + AddOccurrences(entries[1..], code, occ)
  }

  /** Adding occurrences adds `code` to the table's codes and no other. */
  lemma {:induction false} AddOccurrencesCodes(entries: seq<CodeCount>, code: HttpCode, occ: int)
    ensures Codes(AddOccurrences(entries, code, occ)) == Codes(entries) + {code}
  {
    var r := AddOccurrences(entries, code, occ);
    if |entries| == 0 {
    } else if entries[0].code == code {
      CodesCons(entries[0], entries[1..]);
      CodesCons(r[0], entries[1..]);
      assert r == [r[0]] + entries[1..];
    } else {
      AddOccurrencesCodes(entries[1..], code, occ);
      CodesCons(entries[0], entries[1..]);
      CodesCons(entries[0], AddOccurrences(entries[1..], code, occ));
    }
  }

  /** A code not yet in the table is appended at its end: the table keeps first-seen order. */
  lemma {:induction false} AddOccurrencesAppends(entries: seq<CodeCount>, code: HttpCode, occ: int)
    requires code !in Codes(entries)
    ensures AddOccurrences(entries, code, occ) == entries + [CodeCount(code, occ)]
  {
    if |entries| > 0 {
      var head, tail := entries[0], entries[1..];
      CodesCons(head, tail);
      assert head.code != code;
      AddOccurrencesAppends(tail, code, occ);
      assert AddOccurrences(entries, code, occ) == [head] + (tail + [CodeCount(code, occ)]);
      assert entries == [head] + tail;
    }
  }

  /** Adding occurrences keeps the codes distinct. */
  lemma {:induction false} AddOccurrencesDistinct(entries: seq<CodeCount>, code: HttpCode, occ: int)
    requires DistinctCodes(entries)
    ensures DistinctCodes(AddOccurrences(entries, code, occ))
  {
    var r := AddOccurrences(entries, code, occ);
    if |entries| == 0 {
    } else if entries[0].code == code {
      DistinctTail(entries);
      assert r == [r[0]] + entries[1..];
      DistinctCons(r[0], entries[1..]);
    } else {
      var rest := AddOccurrences(entries[1..], code, occ);
      DistinctTail(entries);
      AddOccurrencesDistinct(entries[1..], code, occ);
      AddOccurrencesCodes(entries[1..], code, occ);
      DistinctCons(entries[0], rest);
    }
  }

  lemma CodesCons(a: CodeCount, t: seq<CodeCount>)
    ensures Codes([a] + t) == {a.code} + Codes(t)
  {
    assert forall e :: e in [a] + t <==> e == a || e in t;
  }

  /** Dropping the first entry keeps codes distinct, and the first code does not recur. */
  lemma DistinctTail(entries: seq<CodeCount>)
    requires DistinctCodes(entries) && |entries| > 0
    ensures DistinctCodes(entries[1..]) && entries[0].code !in Codes(entries[1..])
  {
    forall e | e in entries[1..] ensures e.code != entries[0].code {
      var k :| 0 <= k < |entries[1..]| && entries[1..][k] == e;
      assert entries[k + 1] == e;
    }
    forall i, j | 0 <= i < j < |entries[1..]| ensures entries[1..][i].code != entries[1..][j].code {
      assert entries[1..][i] == entries[i + 1] && entries[1..][j] == entries[j + 1];
    }
  }

  lemma DistinctCons(a: CodeCount, t: seq<CodeCount>)
    requires DistinctCodes(t) && a.code !in Codes(t)
    ensures DistinctCodes([a] + t)
  {
    var u := [a] + t;
    forall i, j | 0 <= i < j < |u| ensures u[i].code != u[j].code {
      if i == 0 {
        assert u[j] == t[j - 1];
        assert u[j] in t;
      } else {
        assert u[i] == t[i - 1] && u[j] == t[j - 1];
      }
    }
  }

  /**
    The tally over the rows in order: one entry per code seen, first-seen
    order, each holding exactly the occurrences the rows attribute to it.
   */
  function Tally(rows: seq<ErrorRow>, onlyName: string, codeOf: string -> Option<HttpCode>): (r: seq<CodeCount>)
    ensures DistinctCodes(r)
    ensures forall c :: c in Codes(r) <==> Seen(rows, onlyName, codeOf, c)
    ensures forall c :: CountOf(r, c) == OccurrencesOf(rows, onlyName, codeOf, c)
    ensures SumCounts(r) == MatchedTotal(rows, onlyName, codeOf)
  {
    if |rows| == 0 then []
    else
      var prefix := rows[..|rows| - 1];
      var last := rows[|rows| - 1];
      var t := Tally(prefix, onlyName, codeOf);
      assert forall c: HttpCode :: Seen(rows, onlyName, codeOf, c) <==>
                           Seen(prefix, onlyName, codeOf, c) || CodeOfRow(last, onlyName, codeOf) == Some(c) by {
        forall c: HttpCode ensures Seen(rows, onlyName, codeOf, c) <==>
                           Seen(prefix, onlyName, codeOf, c) || CodeOfRow(last, onlyName, codeOf) == Some(c) {
          if Seen(rows, onlyName, codeOf, c) {
            var i :| 0 <= i < |rows| && CodeOfRow(rows[i], onlyName, codeOf) == Some(c);
            if i < |prefix| {
              assert prefix[i] == rows[i];
            }
          }
          if Seen(prefix, onlyName, codeOf, c) {
            var i :| 0 <= i < |prefix| && CodeOfRow(prefix[i], onlyName, codeOf) == Some(c);
            assert rows[i] == prefix[i];
          }
        }
      }
      match CodeOfRow(last, onlyName, codeOf)
      case None => t
      case Some(code) =>
        AddOccurrencesCodes(t, code, last.occurrences);
        AddOccurrencesDistinct(t, code, last.occurrences);
        AddOccurrences(t, code, last.occurrences)
  }

  // ---- Ordering

  /**
    The sort key `(-count, code)` as one number: codes lie in 100..599, so a
    higher count always comes first and equal counts fall back to the code.
   */
  function RankKey(e: CodeCount): real
  {
    e.code as real - 1000.0 * e.count as real
  }

  /** Ordered by `RankKey` means: counts never rise, and equal counts list codes in increasing order. */
  lemma RankKeyOrder(a: CodeCount, b: CodeCount)
    ensures RankKey(a) <= RankKey(b) <==> a.count > b.count || (a.count == b.count && a.code <= b.code)
  {
  }

  /** The `[HTTP Error Codes]` line without its formatting: the ordered tally and the total. */
  datatype CodeSummary = CodeSummary(ordered: seq<CodeCount>, total: int)

  /**
    `print_http_code_summary` without the printing. It reports nothing
    exactly when the matched occurrences total at most zero; otherwise the
    total is those occurrences, each code seen appears once with exactly its
    occurrences, by count (highest first) and then by code.
   */
  function Summarize(rows: seq<ErrorRow>, onlyName: string, codeOf: string -> Option<HttpCode>): (r: Option<CodeSummary>)
    ensures r.None? <==> MatchedTotal(rows, onlyName, codeOf) <= 0
    ensures r.Some? ==>
              && r.value.total == MatchedTotal(rows, onlyName, codeOf)
              && SumCounts(Tally(rows, onlyName, codeOf)) == r.value.total
              && multiset(r.value.ordered) == multiset(Tally(rows, onlyName, codeOf))
              && (forall i, j :: 0 <= i < j < |r.value.ordered| ==>
                    var a, b := r.value.ordered[i], r.value.ordered[j];
                    a.count > b.count || (a.count == b.count && a.code <= b.code))
  {
    var total := MatchedTotal(rows, onlyName, codeOf);
    if total <= 0 then None
    else
      var ordered := SortBy(Tally(rows, onlyName, codeOf), RankKey);
      assert forall i, j :: 0 <= i < j < |ordered| ==> RankKey(ordered[i]) <= RankKey(ordered[j]);
      forall i, j | 0 <= i < j < |ordered|
        ensures ordered[i].count > ordered[j].count
                || (ordered[i].count == ordered[j].count && ordered[i].code <= ordered[j].code)
      {
        RankKeyOrder(ordered[i], ordered[j]);
      }
      Some(CodeSummary(ordered, total))
  }

  /**
    The reported pairs are exactly the codes seen with their occurrences:
    `(c, n)` is listed if and only if some row carries `c` and the rows
    attribute `n` occurrences to it.
   */
  lemma SummaryListsEachCodeOnce(rows: seq<ErrorRow>, onlyName: string, codeOf: string -> Option<HttpCode>,
                                 c: HttpCode, n: int)
    requires Summarize(rows, onlyName, codeOf).Some?
    ensures CodeCount(c, n) in Summarize(rows, onlyName, codeOf).value.ordered
            <==> Seen(rows, onlyName, codeOf, c) && n == OccurrencesOf(rows, onlyName, codeOf, c)
  {
    var t := Tally(rows, onlyName, codeOf);
    var ordered := Summarize(rows, onlyName, codeOf).value.ordered;
    assert CodeCount(c, n) in ordered <==> CodeCount(c, n) in t by {
      assert CodeCount(c, n) in ordered <==> CodeCount(c, n) in multiset(ordered);
    }
    if CodeCount(c, n) in t {
      var i :| 0 <= i < |t| && t[i] == CodeCount(c, n);
      DistinctCountOf(t, i);
    }
    if Seen(rows, onlyName, codeOf, c) {
      assert c in Codes(t);
      var e :| e in t && e.code == c;
      var i :| 0 <= i < |t| && t[i] == e;
      DistinctCountOf(t, i);
    }
  }

  /** In a table with distinct codes the count of an entry's code is that entry's count. */
  lemma {:induction false} DistinctCountOf(entries: seq<CodeCount>, i: nat)
    requires DistinctCodes(entries) && i < |entries|
    ensures CountOf(entries, entries[i].code) == entries[i].count
  {
    if i > 0 {
      assert entries[0].code != entries[i].code;
      DistinctTail(entries);
      DistinctCountOf(entries[1..], i - 1);
      assert entries[1..][i - 1] == entries[i];
    }
  }
}

=== FILE: load_balance.dfy ===
/**
  The list computations behind `[Load Balancing Status]` and `[Scaling
  Activity]`: hosts ranked by hits, highest first (ties in first-seen
  order), and the hosts split by first-seen time into those present in the
  first `INITIAL_HOST_WINDOW_SEC` seconds and those that appeared later,
  listed by arrival.
 */
module LoadBalance {
  import opened Wrappers
  import opened Seqs
  import opened Settings
  import opened Tracker

  /** The sum of the hit counts of `hosts` (`sum(instance_hits.values())` when they are the table's keys). */
  function HitSum(hosts: seq<string>, hits: map<string, nat>): nat
  {
    if |hosts| == 0 then 0
    else
      var h := hosts[|hosts| - 1];
      HitSum(hosts[..|hosts| - 1], hits) + (if h in hits then hits[h] else 0)
  }

  function TotalHits(t: Tracker): nat
  {
    HitSum(t.hosts, t.hits)
  }

  /** Every listed host has at least one hit, so the total is at least the number of hosts. */
  lemma {:induction false} HitSumAtLeastCount(hosts: seq<string>, hits: map<string, nat>)
    requires forall h :: h in hosts ==> h in hits && hits[h] >= 1
    ensures HitSum(hosts, hits) >= |hosts|
  {
    if |hosts| > 0 {
      HitSumAtLeastCount(hosts[..|hosts| - 1], hits);
    }
  }

  /** Counts of hosts other than those listed do not matter. */
  lemma {:induction false} HitSumIgnoresOthers(hosts: seq<string>, hits: map<string, nat>, id: string, n: nat)
    requires id !in hosts
    ensures HitSum(hosts, hits[id := n]) == HitSum(hosts, hits)
  {
    if |hosts| > 0 {
      HitSumIgnoresOthers(hosts[..|hosts| - 1], hits, id, n);
    }
  }

  /** One more hit for a listed host (hosts distinct) adds one to the total. */
  lemma {:induction false} HitSumBump(hosts: seq<string>, hits: map<string, nat>, id: string)
    requires forall i, j :: 0 <= i < j < |hosts| ==> hosts[i] != hosts[j]
    requires id in hosts && id in hits
    ensures HitSum(hosts, hits[id := hits[id] + 1]) == HitSum(hosts, hits) + 1
  {
    var prefix := hosts[..|hosts| - 1];
    var last := hosts[|hosts| - 1];
    if last == id {
      assert id !in prefix by {
        forall i | 0 <= i < |prefix| ensures prefix[i] != id {
          assert prefix[i] == hosts[i];
        }
      }
      HitSumIgnoresOthers(prefix, hits, id, hits[id] + 1);
    } else {
      var i :| 0 <= i < |hosts| && hosts[i] == id;
      assert prefix[i] == id;
      assert forall a, b :: 0 <= a < b < |prefix| ==> prefix[a] != prefix[b] by {
        forall a, b | 0 <= a < b < |prefix| ensures prefix[a] != prefix[b] {
          assert prefix[a] == hosts[a] && prefix[b] == hosts[b];
        }
      }
      HitSumBump(prefix, hits, id);
    }
  }

  /** `record_hit` adds exactly one hit to the total. */
  lemma RecordHitAddsOne(t: Tracker, id: string, now: real)
    requires HostTableOk(t)
    ensures TotalHits(RecordHit(t, id, now)) == TotalHits(t) + 1
  {
    var r := RecordHit(t, id, now);
    if id in t.hits {
      HitSumBump(t.hosts, t.hits, id);
    } else {
      assert id !in t.hosts;
      HitSumIgnoresOthers(t.hosts, t.hits, id, 1);
      assert r.hosts[..|r.hosts| - 1] == t.hosts;
    }
  }

  // ---- Ranking

  /** One item of `instance_hits.items()`. */
  datatype HostHits = HostHits(host: string, hits: nat)

  /** The table's items in first-seen order. */
  function Items(t: Tracker): (items: seq<HostHits>)
    ensures |items| == |t.hosts|
    ensures forall i :: 0 <= i < |items| ==> items[i] == HostHits(t.hosts[i], HitsOf(t, t.hosts[i]))
  {
    seq(|t.hosts|, i requires 0 <= i < |t.hosts| => HostHits(t.hosts[i], HitsOf(t, t.hosts[i])))
  }

  /** Sort key for "most hits first" (`key=lambda x: x[1], reverse=True`). */
  function ByHitsDescending(item: HostHits): real
  {
    -(item.hits as real)
  }

  /**
    The items ordered by hit count, highest first. Python's sort is stable,
    so items with equal counts keep their first-seen order: filtering both
    lists by any one key value gives the same list.
   */
  function Ranking(t: Tracker): (r: seq<HostHits>)
    ensures multiset(r) == multiset(Items(t))
    ensures forall i, j :: 0 <= i < j < |r| ==> r[i].hits >= r[j].hits
    ensures forall k :: WithKey(r, ByHitsDescending, k) == WithKey(Items(t), ByHitsDescending, k)
  {
    var items := Items(t);
    var r := SortBy(items, ByHitsDescending);
    assert forall i, j :: 0 <= i < j < |r| ==> ByHitsDescending(r[i]) <= ByHitsDescending(r[j]);
    forall k ensures WithKey(r, ByHitsDescending, k) == WithKey(items, ByHitsDescending, k) {
      SortByIsStable(items, ByHitsDescending, k);
    }
    r
  }

  // ---- Scaling activity

  /** A host first seen after the initial window, and when. */
  datatype Arrival = Arrival(host: string, at: real)

  datatype Scaling = Scaling(cutoff: real, initial: set<string>, arrivals: seq<Arrival>)

  /**
    The hosts first seen by `cutoff`. In a consistent table they are hosts of
    the table, and none of them is also listed as a late arrival.
   */
  function InitialHosts(t: Tracker, cutoff: real): (r: set<string>)
    ensures forall h :: h in r <==> h in t.firstSeen && t.firstSeen[h] <= cutoff
    ensures HostTableOk(t) ==> forall h :: h in r ==> h in t.hosts
    ensures forall a :: a in LateHosts(t.hosts, t.firstSeen, cutoff) ==> a.host !in r
  {
    set h | h in t.firstSeen && t.firstSeen[h] <= cutoff
  }

  /**
    The hosts first seen after `cutoff`, in first-seen order of the table;
    a table without repeated hosts gives a list without repeated hosts.
   */
  function LateHosts(hosts: seq<string>, firstSeen: map<string, real>, cutoff: real): (r: seq<Arrival>)
    ensures forall a :: a in r ==> a.host in hosts && a.host in firstSeen && a.at == firstSeen[a.host] > cutoff
    ensures forall h :: h in hosts && h in firstSeen && firstSeen[h] > cutoff ==> Arrival(h, firstSeen[h]) in r
    ensures (forall i, j :: 0 <= i < j < |hosts| ==> hosts[i] != hosts[j]) ==>
              forall i, j :: 0 <= i < j < |r| ==> r[i].host != r[j].host
  {
    if |hosts| == 0 then []
    else
      var h := hosts[|hosts| - 1];
      var init := hosts[..|hosts| - 1];
      var rest := LateHosts(init, firstSeen, cutoff);
      assert forall x :: x in hosts <==> x in init || x == h by {
        assert hosts == init + [h];
      }
      assert (forall i, j :: 0 <= i < j < |hosts| ==> hosts[i] != hosts[j]) ==>
               (forall i, j :: 0 <= i < j < |init| ==> init[i] != init[j]) && h !in init;
      if h in firstSeen && firstSeen[h] > cutoff then rest + [Arrival(h, firstSeen[h])] else rest
  }

  /** `x` stands at some position of `hosts` before a position of `y`. */
  predicate Before(hosts: seq<string>, x: string, y: string)
  {
    exists p, q :: 0 <= p < q < |hosts| && hosts[p] == x && hosts[q] == y
  }

  /** Of any two entries of `r`, the earlier one's host stands earlier in `hosts`. */
  predicate InOrder(r: seq<Arrival>, hosts: seq<string>)
  {
    forall i, j :: 0 <= i < j < |r| ==> Before(hosts, r[i].host, r[j].host)
  }

  lemma BeforeGrowTable(hosts: seq<string>, x: string, y: string, h: string)
    requires Before(hosts, x, y)
    ensures Before(hosts + [h], x, y)
  {
    var p, q :| 0 <= p < q < |hosts| && hosts[p] == x && hosts[q] == y;
    assert (hosts + [h])[p] == x && (hosts + [h])[q] == y;
  }

  lemma InOrderAppend(r: seq<Arrival>, hosts: seq<string>, h: string, at: real)
    requires InOrder(r, hosts) && forall a :: a in r ==> a.host in hosts
    ensures InOrder(r + [Arrival(h, at)], hosts + [h])
  {
    var rs, hs := r + [Arrival(h, at)], hosts + [h];
    forall i, j | 0 <= i < j < |rs| ensures Before(hs, rs[i].host, rs[j].host) {
      assert rs[i] == r[i];
      if j < |r| {
        assert rs[j] == r[j];
        BeforeGrowTable(hosts, r[i].host, r[j].host, h);
      } else {
        assert r[i] in r;
        var p :| 0 <= p < |hosts| && hosts[p] == r[i].host;
        assert hs[p] == hosts[p] && hs[|hosts|] == h == rs[j].host;
      }
    }
  }

  /** The late list keeps the table's order (`dict` iteration follows first-seen insertion). */
  lemma {:induction false} LateHostsInOrder(hosts: seq<string>, firstSeen: map<string, real>, cutoff: real)
    ensures InOrder(LateHosts(hosts, firstSeen, cutoff), hosts)
  {
    if |hosts| > 0 {
      var h := hosts[|hosts| - 1];
      var init := hosts[..|hosts| - 1];
      assert hosts == init + [h];
      var rest := LateHosts(init, firstSeen, cutoff);
      LateHostsInOrder(init, firstSeen, cutoff);
      if h in firstSeen && firstSeen[h] > cutoff {
        InOrderAppend(rest, init, h, firstSeen[h]);
      } else {
        forall i, j | 0 <= i < j < |rest| ensures Before(hosts, rest[i].host, rest[j].host) {
          BeforeGrowTable(init, rest[i].host, rest[j].host, h);
        }
      }
    }
  }

  function ArrivalTime(a: Arrival): real { a.at }

  /**
    The scaling split as of `start + INITIAL_HOST_WINDOW_SEC`: the initial
    set, and the later hosts sorted by arrival (stable, so equal times keep
    first-seen order).
   */
  function ScalingActivity(t: Tracker, start: real): (r: Scaling)
    ensures r.cutoff == start + InitialHostWindowSec
    ensures forall i, j :: 0 <= i < j < |r.arrivals| ==> r.arrivals[i].at <= r.arrivals[j].at
    ensures multiset(r.arrivals) == multiset(LateHosts(t.hosts, t.firstSeen, r.cutoff))
    ensures forall k :: WithKey(r.arrivals, ArrivalTime, k) == WithKey(LateHosts(t.hosts, t.firstSeen, r.cutoff), ArrivalTime, k)
  {
    var cutoff := start + InitialHostWindowSec;
    var late := LateHosts(t.hosts, t.firstSeen, cutoff);
    var arrivals := SortBy(late, ArrivalTime);
    assert forall i, j :: 0 <= i < j < |arrivals| ==> ArrivalTime(arrivals[i]) <= ArrivalTime(arrivals[j]);
    forall k ensures WithKey(arrivals, ArrivalTime, k) == WithKey(late, ArrivalTime, k) {
      SortByIsStable(late, ArrivalTime, k);
    }
    Scaling(cutoff, InitialHosts(t, cutoff), arrivals)
  }

  /**
    Every host of the table lands on exactly one side of the split: in the
    initial set if first seen by the cutoff, otherwise among the arrivals
    with its first-seen time; and nothing else is listed.
   */
  lemma ScalingPartitionsHosts(t: Tracker, start: real, h: string)
    requires HostTableOk(t)
    ensures var r := ScalingActivity(t, start);
            && (h in r.initial ==> h in t.hosts && t.firstSeen[h] <= r.cutoff)
            && (forall a :: a in r.arrivals ==> a.host in t.hosts && a.at == t.firstSeen[a.host] > r.cutoff)
            && (h in t.hosts ==> (h in r.initial <==> !(Arrival(h, t.firstSeen[h]) in r.arrivals)))
  {
    var r := ScalingActivity(t, start);
    var late := LateHosts(t.hosts, t.firstSeen, r.cutoff);
    assert forall a :: a in r.arrivals <==> a in late by {
      forall a ensures a in r.arrivals <==> a in late {
        assert a in r.arrivals <==> a in multiset(r.arrivals);
      }
    }
    if h in r.initial {
      assert h in t.hits;
    }
  }

  // ---- The report

  datatype LoadReport =
    | NoHostData
    | HostReport(totalHits: nat, ranking: seq<HostHits>, distinct: nat, scaling: Option<Scaling>)

  /**
    `_print_load_balancing_and_scaling` without the printing: nothing to
    rank when no hit was recorded; otherwise the total, the ranking, the
    number of distinct hosts, and the scaling split when the run's start
    time is known.
   */
  function Report(t: Tracker): (r: LoadReport)
    ensures r.NoHostData? <==> TotalHits(t) == 0
    ensures r.HostReport? ==>
              && r.totalHits == TotalHits(t) > 0
              && r.ranking == Ranking(t)
              && r.distinct == |t.hits|
              && (r.scaling.Some? <==> t.testStart.Some?)
              && (t.testStart.Some? ==> r.scaling.value == ScalingActivity(t, t.testStart.value))
  {
    var total := TotalHits(t);
    if total == 0 then NoHostData
    else
      HostReport(total, Ranking(t), |t.hits|,
                 if t.testStart.Some? then Some(ScalingActivity(t, t.testStart.value)) else None)
  }

  /** With the host table intact, there is nothing to rank exactly when no host was ever credited. */
  lemma NoHostDataExactlyWhenNoHosts(t: Tracker)
    requires HostTableOk(t)
    ensures Report(t).NoHostData? <==> |t.hosts| == 0
    ensures Report(t).HostReport? ==> Report(t).distinct == |t.hosts|
  {
    HitSumAtLeastCount(t.hosts, t.hits);
    DistinctCount(t);
  }

  /** The table's keys are exactly its distinct first-seen list. */
  lemma DistinctCount(t: Tracker)
    requires HostTableOk(t)
    ensures |t.hits| == |t.hosts|
  {
    DistinctSeqSize(t.hosts);
    assert t.hits.Keys == set h | h in t.hosts;
  }

  lemma {:induction false} DistinctSeqSize(s: seq<string>)
    requires forall i, j :: 0 <= i < j < |s| ==> s[i] != s[j]
    ensures |set h | h in s| == |s|
  {
    if |s| > 0 {
      var p := s[..|s| - 1];
      assert forall i, j :: 0 <= i < j < |p| ==> p[i] != p[j] by {
        forall i, j | 0 <= i < j < |p| ensures p[i] != p[j] {
          assert p[i] == s[i] && p[j] == s[j];
        }
      }
      DistinctSeqSize(p);
      assert s[|s| - 1] !in p by {
        forall i | 0 <= i < |p| ensures p[i] != s[|s| - 1] {
          assert p[i] == s[i];
        }
      }
      assert (set h | h in s) == (set h | h in p) + {s[|s| - 1]} by {
        assert s == p + [s[|s| - 1]];
      }
    }
  }
}

=== FILE: outage_report.dfy ===
/**
  The list computations behind `[Service Outages]`: outages shorter than
  `OUTAGE_MIN_SEC` are dropped from the summary, the rest are counted,
  totalled, ranked by the ceiling-rank percentile, and the longest
  `OUTAGE_TOP_N` are listed, longest first.
 */
module OutageReport {
  import opened Wrappers
  import opened Seqs
  import opened Stats
  import opened Settings

  datatype Report =
    | NoOutage
      // every outage was shorter than the threshold
    | MicroOnly(rawCount: nat, rawTotal: real, rawMax: real)
    | Significant(count: nat, total: real, max: real, p50: real, p95: real, p99: real, top: seq<real>,
                  rawCount: nat, rawTotal: real, rawMax: real)

  /** The durations the summary keeps. */
  function Kept(raw: seq<real>, cfg: Config): seq<real>
  {
    AtLeast(raw, cfg.outageMinSec)
  }

  /** Nothing is kept exactly when every outage is shorter than the threshold. */
  lemma KeptEmpty(raw: seq<real>, cfg: Config)
    ensures |Kept(raw, cfg)| == 0 <==> forall i :: 0 <= i < |raw| ==> raw[i] < cfg.outageMinSec
  {
    var k := Kept(raw, cfg);
    if |k| == 0 {
      forall i | 0 <= i < |raw| ensures raw[i] < cfg.outageMinSec {
        assert multiset(k)[raw[i]] == 0;
        assert raw[i] in multiset(raw);
      }
    } else {
      assert k[0] in multiset(k);
      assert k[0] in multiset(raw);
      var i :| 0 <= i < |raw| && raw[i] == k[0];
    }
  }

  /** Every kept duration is an outage of the run, at least as long as the threshold. */
  lemma KeptAreLongEnough(raw: seq<real>, cfg: Config, d: real)
    requires d in Kept(raw, cfg)
    ensures d in raw && d >= cfg.outageMinSec
  {
    assert d in multiset(Kept(raw, cfg));
  }

  /**
    `_print_service_outages` without the printing. With outages recorded,
    the raw figures always appear; the filtered summary appears when at
    least one outage reaches the threshold, its percentiles are ordered and
    are kept durations, and the top list is the longest kept outages, longest first.
   */
  function Summarize(raw: seq<real>, cfg: Config): (r: Report)
    ensures r.NoOutage? <==> |raw| == 0
    ensures r.MicroOnly? <==> |raw| > 0 && forall i :: 0 <= i < |raw| ==> raw[i] < cfg.outageMinSec
    ensures !r.NoOutage? ==> r.rawCount == |raw| && r.rawTotal == Sum(raw) && r.rawMax == Max(raw)
    ensures r.Significant? ==>
              var kept := Kept(raw, cfg);
              && r.count == |kept| > 0 && r.count <= r.rawCount
              && r.total == Sum(kept) && r.max == Max(kept)
              && r.p50 <= r.p95 <= r.p99 <= r.max
              && r.p50 in kept && r.p95 in kept && r.p99 in kept
              && cfg.outageMinSec <= r.p50
              && |r.top| == (if OutageTopN < r.count then OutageTopN else r.count)
              && (forall i, j :: 0 <= i < j < |r.top| ==> r.top[i] >= r.top[j])
              && multiset(r.top) <= multiset(kept)
  {
    KeptEmpty(raw, cfg);
    if |raw| == 0 then NoOutage
    else
      var kept := Kept(raw, cfg);
      if |kept| == 0 then MicroOnly(|raw|, Sum(raw), Max(raw))
      else
        var s := SortBy(kept, Id);
        assert multiset(s) == multiset(kept);
        assert forall x :: x in s <==> x in kept by {
          forall x ensures x in s <==> x in kept {
            assert x in s <==> x in multiset(s);
          }
        }
        var p50, p95, p99 := Percentile(s, 0.50).value, Percentile(s, 0.95).value, Percentile(s, 0.99).value;
        PercentileMonotone(s, 0.50, 0.95);
        PercentileMonotone(s, 0.95, 0.99);
        KeptAreLongEnough(raw, cfg, p50);
        Significant(|kept|, Sum(kept), Max(kept), p50, p95, p99, Largest(kept, OutageTopN),
                    |raw|, Sum(raw), Max(raw))
  }

  /**
    The reported outage percentiles are nearest-rank over the kept
    durations: at least half (95%, 99%) of them are no longer than `p50`
    (`p95`, `p99`), and no shorter value has that property.
   */
  lemma OutagePercentilesAreNearestRank(raw: seq<real>, cfg: Config)
    requires Summarize(raw, cfg).Significant?
    ensures var r, kept := Summarize(raw, cfg), Kept(raw, cfg);
            && NearestRank(kept, r.p50, 0.50 * r.count as real)
            && NearestRank(kept, r.p95, 0.95 * r.count as real)
            && NearestRank(kept, r.p99, 0.99 * r.count as real)
  {
    var r, kept := Summarize(raw, cfg), Kept(raw, cfg);
    var s := SortBy(kept, Id);
    assert r.p50 == Percentile(s, 0.50).value && r.p95 == Percentile(s, 0.95).value
        && r.p99 == Percentile(s, 0.99).value && r.count == |s|;
    PercentileOfSortedCopy(kept, s, 0.50, 0.50 * r.count as real);
    PercentileOfSortedCopy(kept, s, 0.95, 0.95 * r.count as real);
    PercentileOfSortedCopy(kept, s, 0.99, 0.99 * r.count as real);
  }

  /** No kept outage left off the top list is longer than any outage on it. */
  lemma TopListHoldsTheLongest(raw: seq<real>, cfg: Config, dropped: real, listed: real)
    requires Summarize(raw, cfg).Significant?
    requires dropped in multiset(Kept(raw, cfg)) - multiset(Summarize(raw, cfg).top)
    requires listed in Summarize(raw, cfg).top
    ensures dropped <= listed
  {
    LargestKeepsTheLargest(Kept(raw, cfg), OutageTopN, dropped, listed);
  }
}

=== FILE: reliability.dfy ===
/**
  The `OBSERVE` figures of `[Reliability Metrics]` (the "client view"): how
  many requests and failures, how long errors went on, and the success rate.
 */
module Reliability {
  import opened Wrappers
  import opened Tracker
  import opened Arith

  /** The figures the client view prints; a figure the source skips is `None`. */
  datatype ClientView = ClientView(requests: nat, failures: nat, errorDuration: Option<real>, successRate: Option<real>)

  /** Python's truth value of an optional time: `None` and `0.0` are false. */
  predicate Truthy(x: Option<real>)
  {
    x.Some? && x.value != 0.0
  }

  /**
    The client view of the tracker. The error duration is printed only when
    both error times are truthy, and the success rate only when there was at
    least one `OBSERVE` request; the rate is the success share in percent, so
    it is 100 exactly when nothing failed.
   */
  function ClientViewOf(t: Tracker): (v: ClientView)
    ensures v.requests == t.successCount + t.failureCount && v.failures == t.failureCount
    ensures v.errorDuration.Some? <==> Truthy(t.firstErrorTime) && Truthy(t.lastErrorTime)
    ensures v.errorDuration.Some? ==> t.firstErrorTime.value + v.errorDuration.value == t.lastErrorTime.value
    ensures v.successRate.Some? <==> v.requests > 0
    ensures v.successRate.Some? ==>
              && v.successRate.value * v.requests as real == 100.0 * t.successCount as real
              && 0.0 <= v.successRate.value <= 100.0
              && (v.successRate.value == 100.0 <==> v.failures == 0)
  {
    var total := t.successCount + t.failureCount;
    var duration := if Truthy(t.firstErrorTime) && Truthy(t.lastErrorTime)
                    then Some(t.lastErrorTime.value - t.firstErrorTime.value) else None;
    var rate := if total > 0 then
                  PercentBounds(t.successCount, total);
                  Some((t.successCount as real / total as real) * 100.0)
                else None;
    ClientView(total, t.failureCount, duration, rate)
  }
}

=== FILE: run.dfy ===
/**
  A whole run as the tracker sees it: after `reset_metrics`, the load engine
  delivers request events, and the step monitor wakes up in between; both
  run on one cooperative scheduler, so the tracker sees them one at a time in
  delivery order. The lemmas here state what the source promises over a run:
  the counters partition the `OBSERVE` requests, outages match the runs of
  consecutive failures, each step is reported once, and the SLA stop is
  recorded at most once.
 */
module Run {
  import opened Wrappers
  import opened Settings
  import opened Classify
  import opened Tracker
  import opened StepMonitor
  import opened LoadBalance
  import opened Reliability

  /** What reaches the tracker, each at wall-clock time `at`. */
  datatype Event =
    | Request(name: string, responseTime: real, response: Option<Response>, exception: Option<string>, at: real)
    | Poll(runner: Option<RunState>, at: real)

  function Apply(t: Tracker, cfg: Config, search: string -> Option<string>, e: Event): Tracker
  {
    match e
    case Request(name, rt, response, exception, at) => CollectMetrics(t, name, rt, response, exception, at, search)
    case Poll(runner, at) => MonitorPoll(t, cfg, runner, at)
  }

  /** The tracker after the events, in order. */
  function Play(t: Tracker, cfg: Config, search: string -> Option<string>, events: seq<Event>): Tracker
    decreases |events|
  {
    if |events| == 0 then t
    else Apply(Play(t, cfg, search, events[..|events| - 1]), cfg, search, events[|events| - 1])
  }

  predicate IsObserve(e: Event)
  {
    e.Request? && e.name == ObserveName
  }

  /** One entry per `OBSERVE` request, in order: `true` when it failed. */
  function Outcomes(events: seq<Event>): seq<bool>
  {
    if |events| == 0 then []
    else
      var e := events[|events| - 1];
      Outcomes(events[..|events| - 1]) + (if IsObserve(e) then [IsFailure(e.exception, e.response)] else [])
  }

  function Failures(o: seq<bool>): nat
  {
    if |o| == 0 then 0 else Failures(o[..|o| - 1]) + (if o[|o| - 1] then 1 else 0)
  }

  /** How many maximal runs of consecutive failures `o` holds. */
  function FailureRuns(o: seq<bool>): nat
  {
    if |o| == 0 then 0
    else FailureRuns(o[..|o| - 1]) + (if o[|o| - 1] && (|o| == 1 || !o[|o| - 2]) then 1 else 0)
  }

  /** How many failures are directly followed by a success. */
  function Recoveries(o: seq<bool>): nat
  {
    if |o| < 2 then 0
    else Recoveries(o[..|o| - 1]) + (if o[|o| - 2] && !o[|o| - 1] then 1 else 0)
  }

  lemma {:induction false} PlayKeepsValid(t: Tracker, cfg: Config, search: string -> Option<string>, events: seq<Event>)
    requires Valid(t)
    ensures Valid(Play(t, cfg, search, events))
    decreases |events|
  {
    if |events| > 0 {
      PlayKeepsValid(t, cfg, search, events[..|events| - 1]);
    }
  }

  /**
    The counters partition the `OBSERVE` requests: successes and failures
    grow by exactly the number of successful and failed `OBSERVE` requests,
    whatever else happens in between.
   */
  lemma {:induction false} CountersPartitionObserve(t: Tracker, cfg: Config, search: string -> Option<string>,
                                                    events: seq<Event>)
    ensures var r, o := Play(t, cfg, search, events), Outcomes(events);
            && r.failureCount == t.failureCount + Failures(o)
            && r.successCount == t.successCount + |o| - Failures(o)
            && r.successCount + r.failureCount == t.successCount + t.failureCount + |o|
    decreases |events|
  {
    if |events| > 0 {
      var prefix := events[..|events| - 1];
      CountersPartitionObserve(t, cfg, search, prefix);
      var e := events[|events| - 1];
      CounterStep(Play(t, cfg, search, prefix), cfg, search, e);
      var o := Outcomes(prefix);
      if IsObserve(e) {
        ExtendOutcomes(o, IsFailure(e.exception, e.response));
        assert Outcomes(events) == o + [IsFailure(e.exception, e.response)];
      } else {
        assert Outcomes(events) == o;
      }
    }
  }

  /** What one event does to the counters. */
  lemma CounterStep(t: Tracker, cfg: Config, search: string -> Option<string>, e: Event)
    ensures var r := Apply(t, cfg, search, e);
            if !IsObserve(e) then r.successCount == t.successCount && r.failureCount == t.failureCount
            else if IsFailure(e.exception, e.response) then
              r.successCount == t.successCount && r.failureCount == t.failureCount + 1
            else r.successCount == t.successCount + 1 && r.failureCount == t.failureCount
  {
  }

  /** Closed outages are never removed or changed: a run only appends to the list. */
  lemma {:induction false} OutagesOnlyGrow(t: Tracker, cfg: Config, search: string -> Option<string>,
                                           events: seq<Event>)
    ensures var r := Play(t, cfg, search, events);
            |r.outages| >= |t.outages| && r.outages[..|t.outages|] == t.outages
    decreases |events|
  {
    if |events| > 0 {
      var prefix := events[..|events| - 1];
      OutagesOnlyGrow(t, cfg, search, prefix);
      var before := Play(t, cfg, search, prefix);
      OutageStep(before, cfg, search, events[|events| - 1]);
      var after := Play(t, cfg, search, events);
      assert after.outages[..|before.outages|] == before.outages;
    }
  }

  /** Starting with no open outage, one is open exactly when the last `OBSERVE` request failed. */
  lemma {:induction false} OutageOpenAfterFailure(t: Tracker, cfg: Config, search: string -> Option<string>,
                                                  events: seq<Event>)
    requires t.outageStart.None?
    ensures var o := Outcomes(events);
            Play(t, cfg, search, events).outageStart.Some? <==> |o| > 0 && o[|o| - 1]
    decreases |events|
  {
    if |events| > 0 {
      var prefix := events[..|events| - 1];
      OutageOpenAfterFailure(t, cfg, search, prefix);
      var e := events[|events| - 1];
      OutageStep(Play(t, cfg, search, prefix), cfg, search, e);
      OutcomesStep(events);
    }
  }

  /** Starting with no open outage, every failure directly followed by a success has closed one outage. */
  lemma {:induction false} ClosedOutagesAreRecoveries(t: Tracker, cfg: Config, search: string -> Option<string>,
                                                      events: seq<Event>)
    requires t.outageStart.None?
    ensures |Play(t, cfg, search, events).outages| == |t.outages| + Recoveries(Outcomes(events))
    decreases |events|
  {
    if |events| > 0 {
      var prefix := events[..|events| - 1];
      ClosedOutagesAreRecoveries(t, cfg, search, prefix);
      OutageOpenAfterFailure(t, cfg, search, prefix);
      var e := events[|events| - 1];
      OutageStep(Play(t, cfg, search, prefix), cfg, search, e);
      OutcomesStep(events);
    }
  }

  /**
    Outages follow the runs of consecutive `OBSERVE` failures: starting with
    no open outage, every run of failures has opened one outage, which is
    closed unless the run is still going.
   */
  lemma OutagesFollowFailureRuns(t: Tracker, cfg: Config, search: string -> Option<string>, events: seq<Event>)
    requires t.outageStart.None?
    ensures var r := Play(t, cfg, search, events);
            |r.outages| + (if r.outageStart.Some? then 1 else 0) == |t.outages| + FailureRuns(Outcomes(events))
  {
    OutageOpenAfterFailure(t, cfg, search, events);
    ClosedOutagesAreRecoveries(t, cfg, search, events);
    RunsAreRecoveriesAndOpenRun(Outcomes(events));
  }

  /** Every run of failures has ended in a recovery, except a run still going at the end. */
  lemma {:induction false} RunsAreRecoveriesAndOpenRun(o: seq<bool>)
    ensures FailureRuns(o) == Recoveries(o) + (if |o| > 0 && o[|o| - 1] then 1 else 0)
    decreases |o|
  {
    if |o| > 0 {
      var p := o[..|o| - 1];
      RunsAreRecoveriesAndOpenRun(p);
      ExtendOutcomes(p, o[|o| - 1]);
      assert o == p + [o[|o| - 1]];
    }
  }

  /** The outcomes after one more event. */
  lemma OutcomesStep(events: seq<Event>)
    requires |events| > 0
    ensures var prefix, e := events[..|events| - 1], events[|events| - 1];
            var o := Outcomes(prefix);
            && (IsObserve(e) ==> Outcomes(events) == o + [IsFailure(e.exception, e.response)])
            && (!IsObserve(e) ==> Outcomes(events) == o)
            && (IsObserve(e) ==> ExtendFacts(o, IsFailure(e.exception, e.response)))
  {
    var e := events[|events| - 1];
    if IsObserve(e) {
      ExtendOutcomes(Outcomes(events[..|events| - 1]), IsFailure(e.exception, e.response));
    }
  }

  /** What one event does to the outage state. */
  lemma OutageStep(t: Tracker, cfg: Config, search: string -> Option<string>, e: Event)
    ensures var r := Apply(t, cfg, search, e);
            if !IsObserve(e) then r.outageStart == t.outageStart && r.outages == t.outages
            else if IsFailure(e.exception, e.response) then r.outageStart.Some? && r.outages == t.outages
            else r.outageStart.None? && r.outages == (if t.outageStart.Some? then t.outages + [e.at - t.outageStart.value] else t.outages)
  {
  }

  /** The run counts after one more `OBSERVE` outcome `b`. */
  predicate ExtendFacts(o: seq<bool>, b: bool)
  {
    var o' := o + [b];
    && Failures(o') == Failures(o) + (if b then 1 else 0)
    && FailureRuns(o') == FailureRuns(o) + (if b && (|o| == 0 || !o[|o| - 1]) then 1 else 0)
    && Recoveries(o') == Recoveries(o) + (if |o| > 0 && o[|o| - 1] && !b then 1 else 0)
  }

  lemma ExtendOutcomes(o: seq<bool>, b: bool)
    ensures ExtendFacts(o, b)
  {
    var o' := o + [b];
    assert o'[..|o'| - 1] == o;
  }

  /**
    At run end `_flush_outage_state` closes a still-open outage, so the
    closed outages of a run then number exactly its runs of failures.
   */
  lemma OutagesAtRunEnd(cfg: Config, start: real, spawnAvailable: bool, search: string -> Option<string>,
                        events: seq<Event>, end: real)
    ensures |FlushOutage(Play(Reset(cfg, start, spawnAvailable), cfg, search, events), end).outages|
            == FailureRuns(Outcomes(events))
  {
    OutagesFollowFailureRuns(Reset(cfg, start, spawnAvailable), cfg, search, events);
  }

  /**
    Once the SLA stop is recorded nothing changes it, and no further step is
    reported: the monitor has returned.
   */
  lemma {:induction false} SlaStopIsFinal(t: Tracker, cfg: Config, search: string -> Option<string>, events: seq<Event>)
    requires Valid(t) && t.slaStop.Some?
    ensures var r := Play(t, cfg, search, events);
            r.slaStop == t.slaStop && r.stepLog == t.stepLog && r.lastStep == t.lastStep && r.monitor == Exited
    decreases |events|
  {
    if |events| > 0 {
      SlaStopIsFinal(t, cfg, search, events[..|events| - 1]);
      PlayKeepsValid(t, cfg, search, events[..|events| - 1]);
    }
  }

  /**
    Over a whole run every step is reported once and in order, the step
    being flushed next follows the last one reported, and an SLA stop names
    the last reported step.
   */
  lemma StepsReportedOnce(cfg: Config, start: real, spawnAvailable: bool, search: string -> Option<string>,
                          events: seq<Event>)
    ensures var r := Play(Reset(cfg, start, spawnAvailable), cfg, search, events);
            && (forall i :: 0 <= i < |r.stepLog| ==> r.stepLog[i].step == i + 1)
            && (r.slaStop.None? ==> r.lastStep == |r.stepLog| + 1)
            && (r.slaStop.Some? ==> r.slaStop.value.step == |r.stepLog| && r.monitor == Exited)
  {
    PlayKeepsValid(Reset(cfg, start, spawnAvailable), cfg, search, events);
  }

  /** One event credits at most one host, and only when it counted an `OBSERVE` success. */
  lemma HitStep(t: Tracker, cfg: Config, search: string -> Option<string>, e: Event)
    requires HostTableOk(t)
    ensures var r := Apply(t, cfg, search, e);
            && r.successCount >= t.successCount
            && TotalHits(r) <= TotalHits(t) + (r.successCount - t.successCount)
  {
    if IsObserve(e) && !IsFailure(e.exception, e.response) {
      var id := ServerIdOf(e.response, search);
      var t1 := CountSuccess(t, e.responseTime, e.at);
      if id.Some? && id.value != [] {
        RecordHitAddsOne(t1, id.value, e.at);
      }
    }
  }

  /**
    Every hit behind the load-balancing table comes from a successful
    `OBSERVE` request: over a run, the hits grow by at most the successes.
   */
  lemma {:induction false} HitsNeverExceedSuccesses(t: Tracker, cfg: Config, search: string -> Option<string>,
                                                    events: seq<Event>)
    requires Valid(t)
    ensures var r := Play(t, cfg, search, events);
            TotalHits(r) + t.successCount <= TotalHits(t) + r.successCount
    decreases |events|
  {
    if |events| > 0 {
      var prefix := events[..|events| - 1];
      HitsNeverExceedSuccesses(t, cfg, search, prefix);
      PlayKeepsValid(t, cfg, search, prefix);
      HitStep(Play(t, cfg, search, prefix), cfg, search, events[|events| - 1]);
    }
  }

  /** From `reset_metrics` on, the total hits never exceed the `OBSERVE` successes. */
  lemma HitsAtMostSuccesses(cfg: Config, start: real, spawnAvailable: bool, search: string -> Option<string>,
                            events: seq<Event>)
    ensures var r := Play(Reset(cfg, start, spawnAvailable), cfg, search, events);
            TotalHits(r) <= r.successCount
  {
    HitsNeverExceedSuccesses(Reset(cfg, start, spawnAvailable), cfg, search, events);
  }

  // ---- Error times and the client view

  /** The events arrive in wall-clock order. */
  predicate TimesInOrder(events: seq<Event>)
  {
    forall i, j :: 0 <= i < j < |events| ==> events[i].at <= events[j].at
  }

  /** What one event does to the error times: only a failed `OBSERVE` request stamps them. */
  lemma ErrorTimeStep(t: Tracker, cfg: Config, search: string -> Option<string>, e: Event)
    ensures var r := Apply(t, cfg, search, e);
            if IsObserve(e) && IsFailure(e.exception, e.response) then
              && r.firstErrorTime == (if t.firstErrorTime.None? then Some(e.at) else t.firstErrorTime)
              && r.lastErrorTime == Some(e.at)
            else r.firstErrorTime == t.firstErrorTime && r.lastErrorTime == t.lastErrorTime
  {
  }

  /**
    The error times are set exactly when some `OBSERVE` request failed (or
    they were set before), and the first one, once set, never moves.
   */
  lemma {:induction false} ErrorTimesMarkFailures(t: Tracker, cfg: Config, search: string -> Option<string>,
                                                  events: seq<Event>)
    ensures var r, o := Play(t, cfg, search, events), Outcomes(events);
            && (r.firstErrorTime.Some? <==> t.firstErrorTime.Some? || Failures(o) > 0)
            && (r.lastErrorTime.Some? <==> t.lastErrorTime.Some? || Failures(o) > 0)
            && (t.firstErrorTime.Some? ==> r.firstErrorTime == t.firstErrorTime)
    decreases |events|
  {
    if |events| > 0 {
      var prefix := events[..|events| - 1];
      ErrorTimesMarkFailures(t, cfg, search, prefix);
      ErrorTimeStep(Play(t, cfg, search, prefix), cfg, search, events[|events| - 1]);
      OutcomesStep(events);
    }
  }

  /**
    With events in wall-clock order and no error time before, the first
    error time is never later than the last one, and the last one is never
    later than the latest event.
   */
  lemma {:induction false} ErrorTimesOrdered(t: Tracker, cfg: Config, search: string -> Option<string>,
                                             events: seq<Event>)
    requires TimesInOrder(events)
    requires t.firstErrorTime.None? && t.lastErrorTime.None?
    ensures var r := Play(t, cfg, search, events);
            && (r.firstErrorTime.Some? <==> r.lastErrorTime.Some?)
            && (r.lastErrorTime.Some? ==>
                  && |events| > 0
                  && r.firstErrorTime.value <= r.lastErrorTime.value <= events[|events| - 1].at)
    decreases |events|
  {
    if |events| > 0 {
      var prefix := events[..|events| - 1];
      assert TimesInOrder(prefix) by {
        forall i, j | 0 <= i < j < |prefix| ensures prefix[i].at <= prefix[j].at {
          assert prefix[i] == events[i] && prefix[j] == events[j];
        }
      }
      ErrorTimesOrdered(t, cfg, search, prefix);
      var before := Play(t, cfg, search, prefix);
      ErrorTimeStep(before, cfg, search, events[|events| - 1]);
      if before.lastErrorTime.Some? {
        assert prefix[|prefix| - 1] == events[|events| - 2];
      }
    }
  }

  /**
    The client view at the end of a run: it counts the `OBSERVE` requests and
    their failures, shows an error duration only if something failed, and
    that duration is never negative; the success rate is shown once there
    was a request and is 100 exactly when none failed.
   */
  lemma ClientViewOfRun(cfg: Config, start: real, spawnAvailable: bool, search: string -> Option<string>,
                        events: seq<Event>)
    requires TimesInOrder(events)
    ensures var v, o := ClientViewOf(Play(Reset(cfg, start, spawnAvailable), cfg, search, events)), Outcomes(events);
            && v.requests == |o| && v.failures == Failures(o)
            && (v.errorDuration.Some? ==> Failures(o) > 0 && v.errorDuration.value >= 0.0)
            && (v.successRate.Some? <==> |o| > 0)
            && (v.successRate.Some? ==> (v.successRate.value == 100.0 <==> Failures(o) == 0))
  {
    var t := Reset(cfg, start, spawnAvailable);
    CountersPartitionObserve(t, cfg, search, events);
    ErrorTimesMarkFailures(t, cfg, search, events);
    ErrorTimesOrdered(t, cfg, search, events);
  }
}

=== FILE: seqs.dfy ===
/**
  Sequence helpers behind the run summary: sums, maxima, the list
  comprehension that drops short outages, and a stable sort by a real-valued
  key (Python's `sorted(..., key=...)`, which is stable; `reverse=True` is the
  same as sorting by the negated key).
 */
module Seqs {

  /** Python's `sum(s)` over a list of floats (exact arithmetic here). */
  function Sum(s: seq<real>): real
  {
    if |s| == 0 then 0.0 else s[0] + Sum(s[1..])
  }

  /** Python's `max(s)` on a non-empty list. */
  function Max(s: seq<real>): (m: real)
    requires |s| > 0
    ensures m in s
    ensures forall i :: 0 <= i < |s| ==> s[i] <= m
  {
    if |s| == 1 then s[0]
    else
      var rest := Max(s[1..]);
      assert forall i :: 1 <= i < |s| ==> s[i] == s[1..][i - 1];
      if s[0] >= rest then s[0] else rest
  }

  /** `[d for d in s if d >= lo]`: the elements of `s` that are at least `lo`, in order. */
  function AtLeast(s: seq<real>, lo: real): (r: seq<real>)
    ensures |r| <= |s|
    ensures forall x :: multiset(r)[x] == if x >= lo then multiset(s)[x] else 0
  {
    if |s| == 0 then []
    else
      assert s == [s[0]] + s[1..];
      if s[0] >= lo then [s[0]] + AtLeast(s[1..], lo) else AtLeast(s[1..], lo)
  }

  /** Every pair of positions is ordered by `key`. */
  predicate SortedBy<T>(s: seq<T>, key: T -> real)
  {
    forall i, j :: 0 <= i < j < |s| ==> key(s[i]) <= key(s[j])
  }

  /** The elements of `s` whose key is exactly `k`, in their order in `s`. */
  function WithKey<T>(s: seq<T>, key: T -> real, k: real): seq<T>
  {
    if |s| == 0 then []
    else if key(s[0]) == k then [s[0]] + WithKey(s[1..], key, k)
    else WithKey(s[1..], key, k)
  }

  /** Insert `x` before the first element whose key is not smaller. */
  function Insert<T>(x: T, s: seq<T>, key: T -> real): (r: seq<T>)
    requires SortedBy(s, key)
    ensures SortedBy(r, key)
    ensures multiset(r) == multiset(s) + multiset{x}
  {
    if |s| == 0 then [x]
    else if key(x) <= key(s[0]) then [x] + s
    else
      var rest := Insert(x, s[1..], key);
      assert s == [s[0]] + s[1..];
      assert forall y :: y in rest ==> key(s[0]) <= key(y) by {
        forall y | y in rest ensures key(s[0]) <= key(y) {
          assert y in multiset(rest);
          if y != x {
            assert y in multiset(s[1..]);
            assert y in s[1..];
          }
        }
      }
      ConsSorted(s[0], rest, key);
      [s[0]] + rest
  }

  lemma ConsSorted<T>(a: T, t: seq<T>, key: T -> real)
    requires SortedBy(t, key)
    requires forall y :: y in t ==> key(a) <= key(y)
    ensures SortedBy([a] + t, key)
  {
    var u := [a] + t;
    forall i, j | 0 <= i < j < |u| ensures key(u[i]) <= key(u[j]) {
      if i == 0 {
        assert u[j] == t[j - 1];
      } else {
        assert u[i] == t[i - 1] && u[j] == t[j - 1];
      }
    }
  }

  /** Stable sort of `s` by ascending `key` (insertion sort). */
  function SortBy<T>(s: seq<T>, key: T -> real): (r: seq<T>)
    ensures SortedBy(r, key)
    ensures multiset(r) == multiset(s)
    ensures |r| == |s|
  {
    if |s| == 0 then []
    else
      assert s == [s[0]] + s[1..];
      Insert(s[0], SortBy(s[1..], key), key)
  }

  lemma WithKeyCons<T>(a: T, t: seq<T>, key: T -> real, k: real)
    ensures WithKey([a] + t, key, k) == (if key(a) == k then [a] else []) + WithKey(t, key, k)
  {
    assert ([a] + t)[1..] == t;
  }

  lemma {:induction false} InsertKeepsKeyOrder<T>(x: T, s: seq<T>, key: T -> real, k: real)
    requires SortedBy(s, key)
    ensures WithKey(Insert(x, s, key), key, k)
            == (if key(x) == k then [x] else []) + WithKey(s, key, k)
    decreases |s|
  {
    if |s| == 0 {
      WithKeyCons(x, s, key, k);
    } else if key(x) <= key(s[0]) {
      WithKeyCons(x, s, key, k);
    } else {
      var rest := Insert(x, s[1..], key);
      assert Insert(x, s, key) == [s[0]] + rest;
      assert s == [s[0]] + s[1..];
      InsertKeepsKeyOrder(x, s[1..], key, k);
      WithKeyCons(s[0], rest, key, k);
      WithKeyCons(s[0], s[1..], key, k);
    }
  }

  /** Stability: among elements with equal keys the input order survives sorting. */
  lemma {:induction false} SortByIsStable<T>(s: seq<T>, key: T -> real, k: real)
    ensures WithKey(SortBy(s, key), key, k) == WithKey(s, key, k)
    decreases |s|
  {
    if |s| > 0 {
      SortByIsStable(s[1..], key, k);
      InsertKeepsKeyOrder(s[0], SortBy(s[1..], key), key, k);
    }
  }

  function Negate(x: real): real { -x }

  /** `sorted(s, reverse=True)[:n]`: the `n` largest values, largest first. */
  function Largest(s: seq<real>, n: nat): (r: seq<real>)
    ensures |r| == if n < |s| then n else |s|
    ensures forall i, j :: 0 <= i < j < |r| ==> r[i] >= r[j]
    ensures multiset(r) <= multiset(s)
  {
    var d := SortBy(s, Negate);
    var m := if n < |s| then n else |s|;
    assert d == d[..m] + d[m..];
    d[..m]
  }

  /** Nothing left out of `Largest(s, n)` is larger than anything kept. */
  lemma LargestKeepsTheLargest(s: seq<real>, n: nat, x: real, y: real)
    requires x in multiset(s) - multiset(Largest(s, n))
    requires y in Largest(s, n)
    ensures x <= y
  {
    var d := SortBy(s, Negate);
    var m := if n < |s| then n else |s|;
    assert Largest(s, n) == d[..m];
    var i := DroppedIndex(d, m, x);
    var j :| 0 <= j < m && d[..m][j] == y;
    assert Negate(d[j]) <= Negate(d[i]);
  }

  /** A value occurring more often in `d` than in its first `m` elements occurs after them. */
  lemma DroppedIndex(d: seq<real>, m: nat, x: real) returns (i: nat)
    requires m <= |d|
    requires x in multiset(d) - multiset(d[..m])
    ensures m <= i < |d| && d[i] == x
  {
    assert d == d[..m] + d[m..];
    assert multiset(d) == multiset(d[..m]) + multiset(d[m..]);
    assert x in multiset(d[m..]);
    assert x in d[m..];
    var k :| 0 <= k < |d| - m && d[m..][k] == x;
    i := m + k;
  }
}

=== FILE: settings.dfy ===
/**
  The run configuration read by the locustfile, with the two string
  normalisations it applies at import time: the observe path always gets a
  leading `/`, and a target host without a scheme gets `http://`.
  Reading the environment and the `.env`/JSON files is outside the model; the
  raw values arrive as parameters.
 */
module Settings {
  import opened Wrappers

  /** The environment-driven knobs the metrics core reads. */
  datatype Config = Config(
    stepTime: int,            // STEP_TIME, seconds per load step
    stepUsers: int,           // STEP_USERS, users added per step
    spawnRate: real,          // SPAWN_RATE
    timeLimit: int,           // TIME_LIMIT, seconds
    slaP95Ms: real,           // SLA_P95_MS
    useStepShape: bool,       // USE_STEP_SHAPE
    enableStepSlaStop: bool,  // ENABLE_STEP_SLA_STOP
    outageMinSec: real        // OUTAGE_MIN_SEC
  )

  /** The values used when no environment variable overrides them. */
  const DefaultConfig := Config(180, 50, 10.0, 720, 500.0, false, false, 0.10)

  /** Fixed constants of the harness. */
  const InitialHostWindowSec: real := 10.0
  const SlaStepMinSamples: int := 20
  const OutageTopN: nat := 10

  /** Python's `str.isspace` on one character. */
  predicate IsSpace(c: char)
  {
    || c == ' '
    || '\t' <= c <= '\r'
    || '\U{1c}' <= c <= '\U{1f}'
    || c == '\U{85}' || c == '\U{a0}' || c == '\U{1680}'
    || '\U{2000}' <= c <= '\U{200a}'
    || c == '\U{2028}' || c == '\U{2029}' || c == '\U{202f}' || c == '\U{205f}' || c == '\U{3000}'
  }

  predicate StartsWith(s: string, prefix: string)
  {
    |prefix| <= |s| && s[..|prefix|] == prefix
  }

  /** The first index at or after `i` that does not hold whitespace (`|s|` if none does). */
  function SkipSpaces(s: string, i: nat): (j: nat)
    requires i <= |s|
    ensures i <= j <= |s|
    ensures forall k :: i <= k < j ==> IsSpace(s[k])
    ensures j < |s| ==> !IsSpace(s[j])
    decreases |s| - i
  {
    if i < |s| && IsSpace(s[i]) then SkipSpaces(s, i + 1) else i
  }

  /** Walking back from `j`, but not below `lo`: one past the last index that does not hold whitespace. */
  function SkipSpacesBack(s: string, lo: nat, j: nat): (e: nat)
    requires lo <= j <= |s|
    ensures lo <= e <= j
    ensures forall k :: e <= k < j ==> IsSpace(s[k])
    ensures e > lo ==> !IsSpace(s[e - 1])
    decreases j
  {
    if j > lo && IsSpace(s[j - 1]) then SkipSpacesBack(s, lo, j - 1) else j
  }

  /** Where `s.strip()` starts: the leading whitespace is cut. */
  function StripStart(s: string): nat
    ensures StripStart(s) <= |s|
  {
    SkipSpaces(s, 0)
  }

  /** Where `s.strip()` ends: the trailing whitespace after the start is cut. */
  function StripEnd(s: string): nat
    ensures StripStart(s) <= StripEnd(s) <= |s|
  {
    SkipSpacesBack(s, StripStart(s), |s|)
  }

  /**
    `s.strip()`: the slice of `s` that starts and ends with non-whitespace,
    with only whitespace cut away on either side.
   */
  function Strip(s: string): (r: string)
    ensures StripStart(s) + |r| <= |s| && r == s[StripStart(s)..StripStart(s) + |r|]
    ensures |r| > 0 ==> !IsSpace(r[0]) && !IsSpace(r[|r| - 1])
    ensures forall k :: 0 <= k < StripStart(s) ==> IsSpace(s[k])
    ensures forall k :: StripStart(s) + |r| <= k < |s| ==> IsSpace(s[k])
  {
    s[StripStart(s)..StripEnd(s)]
  }

  /**
    `Strip` undoes any padding: whitespace put around a string with
    non-whitespace ends (or around nothing) is exactly what it cuts.
   */
  lemma StripUnpads(a: string, m: string, b: string)
    requires forall k :: 0 <= k < |a| ==> IsSpace(a[k])
    requires forall k :: 0 <= k < |b| ==> IsSpace(b[k])
    requires |m| > 0 ==> !IsSpace(m[0]) && !IsSpace(m[|m| - 1])
    ensures Strip(a + m + b) == m
  {
    var s := a + m + b;
    var i, e := StripStart(s), StripEnd(s);
    var n := |a| + |m|;
    assert forall k :: 0 <= k < |a| ==> s[k] == a[k];
    assert forall k :: n <= k < |s| ==> s[k] == b[k - n];
    if |m| > 0 {
      assert s[|a|] == m[0] && s[n - 1] == m[|m| - 1];
      assert i == |a|;
      assert e == n;
    } else {
      assert i == |s|;
    }
    assert s[i..e] == m;
  }

  /** A string with no whitespace at either end is left as it is by `Strip`. */
  lemma StripTrimmed(s: string)
    requires |s| > 0 ==> !IsSpace(s[0]) && !IsSpace(s[|s| - 1])
    ensures Strip(s) == s
  {
    assert StripStart(s) == 0;
    assert StripEnd(s) == |s|;
  }

  lemma StripIdempotent(s: string)
    ensures Strip(Strip(s)) == Strip(s)
  {
    StripTrimmed(Strip(s));
  }

  /**
    `Config.OBSERVE_PATH`: the stripped `OBSERVE_PATH` (default `"/"`), with a
    `/` put in front when it does not already start with one.
   */
  function ObservePath(raw: Option<string>): (path: string)
    ensures |path| > 0 && path[0] == '/'
    ensures !IsSpace(path[|path| - 1])
    ensures var s := Strip(if raw.Some? then raw.value else "/");
            (StartsWith(s, "/") ==> path == s) && (!StartsWith(s, "/") ==> path == "/" + s)
  {
    Slashed(Strip(if raw.Some? then raw.value else "/"))
  }

  /** `s` with a `/` put in front unless it already starts with one. */
  function Slashed(s: string): (path: string)
    requires |s| > 0 ==> !IsSpace(s[|s| - 1])
    ensures |path| > 0 && path[0] == '/'
    ensures !IsSpace(path[|path| - 1])
    ensures (StartsWith(s, "/") ==> path == s) && (!StartsWith(s, "/") ==> path == "/" + s)
  {
    if StartsWith(s, "/") then s
    else if |s| == 0 then "/"
    else
      var p := "/" + s;
      assert p[|p| - 1] == s[|s| - 1];
      p
  }

  /** Normalising an already normalised path changes nothing. */
  lemma ObservePathIdempotent(raw: Option<string>)
    ensures ObservePath(Some(ObservePath(raw))) == ObservePath(raw)
  {
    SlashedPathIsFixed(ObservePath(raw));
  }

  lemma SlashedPathIsFixed(p: string)
    requires |p| > 0 && p[0] == '/' && !IsSpace(p[|p| - 1])
    ensures ObservePath(Some(p)) == p
  {
    assert !IsSpace(p[0]);
    StripTrimmed(p);
    assert p[..1] == "/";
  }

  /**
    `BaseUser.host`: the target URL gets an `http://` prefix when it is
    non-empty and does not already start with `http`; otherwise (also when
    no URL was found) it is used unchanged.
   */
  function HostWithScheme(albUrl: Option<string>): (host: Option<string>)
    ensures host.None? <==> albUrl.None?
    ensures albUrl.Some? && albUrl.value != [] && !StartsWith(albUrl.value, "http")
            ==> host == Some("http://" + albUrl.value)
    ensures albUrl.None? || albUrl.value == [] || StartsWith(albUrl.value, "http") ==> host == albUrl
  {
    match albUrl
    case Some(h) => if h != [] && !StartsWith(h, "http") then Some("http://" + h) else albUrl
    case None => None
  }

  /** After prefixing, every non-empty host starts with `http`, so prefixing twice adds nothing. */
  lemma HostWithSchemeIdempotent(albUrl: Option<string>)
    ensures var h := HostWithScheme(albUrl); h.Some? && h.value != [] ==> StartsWith(h.value, "http")
    ensures HostWithScheme(HostWithScheme(albUrl)) == HostWithScheme(albUrl)
  {
    var h := HostWithScheme(albUrl);
    if albUrl.Some? && albUrl.value != [] && !StartsWith(albUrl.value, "http") {
      assert h.value[..4] == "http";
    }
  }
}

=== FILE: stats.dfy ===
/**
  The ceiling-rank percentile used for step SLAs and outage summaries
  (`_percentile` in locust_metrics.py): on a sorted list of `n` values the
  `q`-percentile is the element at index `ceil(q * n) - 1`, clamped into
  `[0, n - 1]`; no interpolation.
 */
module Stats {
  import opened Wrappers
  import opened Seqs

  /** `math.ceil` on an exact real. */
  function Ceil(x: real): (c: int)
    ensures x <= c as real
    ensures (c - 1) as real < x
  {
    -((-x).Floor)
  }

  function Id(x: real): real { x }

  /** Ascending order of a list of numbers, Python's `sorted(values)`. */
  predicate Ascending(s: seq<real>)
  {
    SortedBy(s, Id)
  }

  /** The index `_percentile` reads: `max(0, min(ceil(q * n) - 1, n - 1))`. */
  function RankIndex(q: real, n: nat): (i: int)
    requires n > 0
    ensures 0 <= i < n
  {
    RankAt(q * n as real, n)
  }

  /** The clamped ceiling rank of a scaled quantile `x = q * n`. */
  function RankAt(x: real, n: nat): (i: int)
    requires n > 0
    ensures 0 <= i < n
  {
    Clamp(Ceil(x) - 1, n - 1)
  }

  /** For a quantile in `(0, 1]` the clamp never bites: the index is `ceil(q * n) - 1` itself. */
  lemma RankIndexUnclamped(q: real, n: nat)
    requires n > 0 && 0.0 < q <= 1.0
    ensures RankIndex(q, n) == Ceil(q * n as real) - 1
  {
    ScaledWithin(q, n);
  }

  /** `max(0, min(i, hi))`. */
  function Clamp(i: int, hi: nat): (c: nat)
    ensures c <= hi
    ensures 0 <= i <= hi ==> c == i
  {
    if i > hi then hi else if i < 0 then 0 else i
  }

  lemma ScaledWithin(q: real, n: nat)
    requires 0.0 < q <= 1.0 && n > 0
    ensures 0.0 < q * n as real <= n as real
  {
    assert q * n as real <= 1.0 * n as real;
  }

  lemma ScaleMonotone(q1: real, q2: real, n: nat)
    requires q1 <= q2
    ensures q1 * n as real <= q2 * n as real
  {
    assert (q2 - q1) * n as real >= 0.0;
  }

  /** `_percentile(sorted_vals, q)`: `None` on an empty list, else the element at the rank index. */
  function Percentile(sorted: seq<real>, q: real): (r: Option<real>)
    ensures r.None? <==> |sorted| == 0
    ensures r.Some? ==> r.value in sorted
  {
    if |sorted| == 0 then None else Some(sorted[RankIndex(q, |sorted|)])
  }

  /** How many values in `s` are at most `v`. */
  function CountAtMost(s: seq<real>, v: real): nat
  {
    if |s| == 0 then 0 else (if s[0] <= v then 1 else 0) + CountAtMost(s[1..], v)
  }

  /** How many values in `s` are strictly below `v`. */
  function CountBelow(s: seq<real>, v: real): nat
  {
    if |s| == 0 then 0 else (if s[0] < v then 1 else 0) + CountBelow(s[1..], v)
  }

  lemma {:induction false} CountAtMostFromBelow(s: seq<real>, v: real, k: nat)
    requires Ascending(s)
    requires k < |s| && s[k] <= v
    ensures CountAtMost(s, v) >= k + 1
    decreases k
  {
    if k > 0 {
      assert s[0] <= s[k];
      assert s[1..][k - 1] == s[k];
      CountAtMostFromBelow(s[1..], v, k - 1);
    }
  }

  lemma {:induction false} CountAtMostFromAbove(s: seq<real>, v: real, k: nat)
    requires forall j :: k <= j < |s| ==> v < s[j]
    ensures CountAtMost(s, v) <= k
    decreases |s|
  {
    if |s| > 0 {
      if k == 0 {
        CountAtMostFromAbove(s[1..], v, 0);
      } else {
        CountAtMostFromAbove(s[1..], v, k - 1);
      }
    }
  }

  lemma {:induction false} CountBelowFromAbove(s: seq<real>, v: real, k: nat)
    requires forall j :: k <= j < |s| ==> v <= s[j]
    ensures CountBelow(s, v) <= k
    decreases |s|
  {
    if |s| > 0 {
      if k == 0 {
        CountBelowFromAbove(s[1..], v, 0);
      } else {
        CountBelowFromAbove(s[1..], v, k - 1);
      }
    }
  }

  /** Every value at most `w` is below any `v > w`. */
  lemma {:induction false} CountAtMostBelow(s: seq<real>, w: real, v: real)
    requires w < v
    ensures CountAtMost(s, w) <= CountBelow(s, v)
    decreases |s|
  {
    if |s| > 0 {
      CountAtMostBelow(s[1..], w, v);
    }
  }

  /** The rank facts behind the nearest-rank reading, with `x` standing for `q * n`. */
  lemma RankFacts(s: seq<real>, x: real, k: nat)
    requires Ascending(s)
    requires k < |s| && k == Ceil(x) - 1
    ensures CountAtMost(s, s[k]) as real >= x
    ensures forall v :: v < s[k] ==> (CountAtMost(s, v) as real) < x
    ensures (CountBelow(s, s[k]) as real) < x
  {
    CountAtMostFromBelow(s, s[k], k);
    forall j | k <= j < |s| ensures s[k] <= s[j] {
      assert j == k || Id(s[k]) <= Id(s[j]);
    }
    CountBelowFromAbove(s, s[k], k);
    forall v | v < s[k] ensures (CountAtMost(s, v) as real) < x {
      forall j | k <= j < |s| ensures v < s[j] {
        assert j == k || Id(s[k]) <= Id(s[j]);
      }
      CountAtMostFromAbove(s, v, k);
    }
  }

  /**
    Nearest-rank characterisation: for `0 < q <= 1` the ceiling-rank
    percentile of a sorted list is the smallest value `r` such that at least
    `q * n` of the values are at most `r`.
   */
  lemma PercentileIsNearestRank(s: seq<real>, q: real)
    requires Ascending(s) && |s| > 0
    requires 0.0 < q <= 1.0
    ensures CountAtMost(s, Percentile(s, q).value) as real >= q * |s| as real
    ensures forall v :: v < Percentile(s, q).value ==> (CountAtMost(s, v) as real) < q * |s| as real
    ensures (CountBelow(s, Percentile(s, q).value) as real) < q * |s| as real
  {
    var k := RankIndex(q, |s|);
    RankIndexUnclamped(q, |s|);
    RankFacts(s, q * |s| as real, k);
  }

  /** A higher quantile never reads a smaller value: p50 <= p95 <= p99. */
  lemma PercentileMonotone(s: seq<real>, q1: real, q2: real)
    requires Ascending(s) && |s| > 0
    requires q1 <= q2
    ensures Percentile(s, q1).value <= Percentile(s, q2).value
  {
    var n := |s|;
    var i1, i2 := RankIndex(q1, n), RankIndex(q2, n);
    RankIndexMonotone(q1, q2, n);
    if i1 < i2 {
      assert Id(s[i1]) <= Id(s[i2]);
    }
  }

  lemma RankIndexMonotone(q1: real, q2: real, n: nat)
    requires n > 0 && q1 <= q2
    ensures RankIndex(q1, n) <= RankIndex(q2, n)
  {
    ScaleMonotone(q1, q2, n);
    assert q1 * n as real <= q2 * n as real;
    RankAtMonotone(q1 * n as real, q2 * n as real, n);
  }

  lemma RankAtMonotone(x1: real, x2: real, n: nat)
    requires n > 0 && x1 <= x2
    ensures RankAt(x1, n) <= RankAt(x2, n)
  {
    CeilMonotone(x1, x2);
    ClampMonotone(Ceil(x1) - 1, Ceil(x2) - 1, n - 1);
  }

  lemma ClampMonotone(i: int, j: int, hi: nat)
    requires i <= j
    ensures Clamp(i, hi) <= Clamp(j, hi)
  {
  }

  lemma CeilMonotone(x: real, y: real)
    requires x <= y
    ensures Ceil(x) <= Ceil(y)
  {
  }

  lemma {:induction false} CountAtMostMonotone(s: seq<real>, v1: real, v2: real)
    requires v1 <= v2
    ensures CountAtMost(s, v1) <= CountAtMost(s, v2)
    decreases |s|
  {
    if |s| > 0 {
      CountAtMostMonotone(s[1..], v1, v2);
    }
  }

  lemma {:induction false} CountAtMostInsert(x: real, s: seq<real>, v: real)
    requires Ascending(s)
    ensures CountAtMost(Insert(x, s, Id), v) == CountAtMost(s, v) + (if x <= v then 1 else 0)
    decreases |s|
  {
    if |s| > 0 && Id(x) > Id(s[0]) {
      var rest := Insert(x, s[1..], Id);
      CountAtMostInsert(x, s[1..], v);
      assert ([s[0]] + rest)[1..] == rest;
    } else if |s| > 0 {
      assert ([x] + s)[1..] == s;
    }
  }

  /** Sorting does not change how many values lie at or below a bound. */
  lemma {:induction false} CountAtMostSorted(s: seq<real>, v: real)
    ensures CountAtMost(SortBy(s, Id), v) == CountAtMost(s, v)
    decreases |s|
  {
    if |s| > 0 {
      CountAtMostSorted(s[1..], v);
      CountAtMostInsert(s[0], SortBy(s[1..], Id), v);
    }
  }

  lemma {:induction false} CountBelowInsert(x: real, s: seq<real>, v: real)
    requires Ascending(s)
    ensures CountBelow(Insert(x, s, Id), v) == CountBelow(s, v) + (if x < v then 1 else 0)
    decreases |s|
  {
    if |s| > 0 && Id(x) > Id(s[0]) {
      var rest := Insert(x, s[1..], Id);
      CountBelowInsert(x, s[1..], v);
      assert ([s[0]] + rest)[1..] == rest;
    } else if |s| > 0 {
      assert ([x] + s)[1..] == s;
    }
  }

  /** Sorting does not change how many values lie below a bound. */
  lemma {:induction false} CountBelowSorted(s: seq<real>, v: real)
    ensures CountBelow(SortBy(s, Id), v) == CountBelow(s, v)
    decreases |s|
  {
    if |s| > 0 {
      CountBelowSorted(s[1..], v);
      CountBelowInsert(s[0], SortBy(s[1..], Id), v);
    }
  }

  /**
    `p` is the nearest-rank value of `values` for `quota`: at least `quota`
    of them lie at or below it, and fewer than `quota` lie strictly below.
   */
  predicate NearestRank(values: seq<real>, p: real, quota: real)
  {
    && CountAtMost(values, p) as real >= quota
    && (CountBelow(values, p) as real) < quota
  }

  /** The nearest-rank value is the smallest one reaching the quota: fewer than `quota` values lie at or below anything smaller. */
  lemma NearestRankIsLeast(values: seq<real>, p: real, quota: real)
    requires NearestRank(values, p, quota)
    ensures forall v :: v < p ==> (CountAtMost(values, v) as real) < quota
  {
    forall v | v < p ensures (CountAtMost(values, v) as real) < quota {
      CountAtMostBelow(values, v, p);
    }
  }

  /**
    The percentile of the sorted copy `s` of unsorted values `u` is their
    nearest-rank value: at least `quota = q * n` of them lie at or below it,
    and fewer lie below any smaller value (`n` is the length of either).
   */
  lemma PercentileOfSortedCopy(u: seq<real>, s: seq<real>, q: real, quota: real)
    requires s == SortBy(u, Id)
    requires |u| > 0 && 0.0 < q <= 1.0
    requires quota == q * |s| as real
    ensures NearestRank(u, Percentile(s, q).value, quota)
  {
    PercentileIsNearestRank(s, q);
    var p := Percentile(s, q).value;
    CountAtMostSorted(u, p);
    CountBelowSorted(u, p);
  }

  /**
    Reading a percentile against a threshold: the `q`-percentile of a sorted
    list exceeds `limit` exactly when fewer than `q * n` of the values are at
    most `limit`.
   */
  lemma PercentileExceeds(s: seq<real>, q: real, limit: real)
    requires Ascending(s) && |s| > 0
    requires 0.0 < q <= 1.0
    ensures Percentile(s, q).value > limit <==> (CountAtMost(s, limit) as real) < q * |s| as real
  {
    var r := Percentile(s, q).value;
    PercentileIsNearestRank(s, q);
    if r <= limit {
      CountAtMostMonotone(s, r, limit);
    }
  }

  /** Worked example: on `[10, 20, 30, 40, 50]` the 95th percentile reads index 4. */
  lemma PercentileExample()
    ensures Percentile([10.0, 20.0, 30.0, 40.0, 50.0], 0.95) == Some(50.0)
    ensures RankIndex(0.95, 25) == 23
  {
    assert Ceil(0.95 * 5.0) == 5;
    assert Ceil(0.95 * 25.0) == 24;
  }
}

=== FILE: step_monitor.dfy ===
/**
  The step SLA monitor (`_step_sla_monitor`). Each time it wakes it works out
  the 1-based step the run is in, and for every step boundary crossed since
  it last looked it reports the finished step: fail rate, and p95/p99 when
  the window holds enough response times. If p95 exceeds the SLA it records
  the stop and returns; otherwise it clears the window and moves to the next
  step. Sleeping between wake-ups is left to the caller: each call here is
  one wake-up at wall-clock time `now`.
 */
module StepMonitor {
  import opened Wrappers
  import opened Seqs
  import opened Stats
  import opened Arith
  import opened Settings
  import opened Tracker

  /** The load engine's runner states (`STATE_*`). */
  datatype RunState = Ready | Spawning | Running | Cleanup | Stopping | Stopped | Missing

  /** `(fail / total) * 100.0`, or `0.0` for an empty window. */
  function FailRate(w: Window): (rate: real)
    ensures 0.0 <= rate <= 100.0
    ensures w.fail == 0 ==> rate == 0.0
    ensures w.succ == 0 && w.fail > 0 ==> rate == 100.0
    ensures w.succ + w.fail > 0 ==> rate * (w.succ + w.fail) as real == 100.0 * w.fail as real
  {
    var total := w.succ + w.fail;
    if total > 0 then
      PercentBounds(w.fail, total);
      (w.fail as real / total as real) * 100.0
    else 0.0
  }

  /**
    p95 and p99 of a window's response times, read from the sorted list,
    or neither when it holds fewer than `SlaStepMinSamples` of them. Both
    are nearest-rank values of the window: p95 is the smallest latency with
    at least 95% of the samples at or below it, and likewise p99 for 99%.
   */
  function StepPercentiles(rts: seq<real>): (p: (Option<real>, Option<real>))
    ensures p.0.Some? <==> |rts| >= SlaStepMinSamples
    ensures p.1.Some? <==> |rts| >= SlaStepMinSamples
    ensures p.0.Some? ==> p.0.value in rts && p.1.value in rts && p.0.value <= p.1.value
    ensures p.0.Some? ==> NearestRank(rts, p.0.value, 0.95 * |rts| as real)
                          && NearestRank(rts, p.1.value, 0.99 * |rts| as real)
  {
    if |rts| >= SlaStepMinSamples then
      var sorted := SortBy(rts, Id);
      PercentileMonotone(sorted, 0.95, 0.99);
      var p95, p99 := Percentile(sorted, 0.95), Percentile(sorted, 0.99);
      assert multiset(sorted)[p95.value] > 0 && multiset(sorted)[p99.value] > 0;
      StepQuantilesAreNearestRank(rts, sorted);
      (p95, p99)
    else (None, None)
  }

  /** The 95% and 99% reads of the sorted copy are nearest-rank values of the window. */
  lemma StepQuantilesAreNearestRank(rts: seq<real>, sorted: seq<real>)
    requires sorted == SortBy(rts, Id) && |rts| > 0
    ensures var p95 := Percentile(sorted, 0.95).value; NearestRank(rts, p95, 0.95 * |rts| as real)
    ensures var p99 := Percentile(sorted, 0.99).value; NearestRank(rts, p99, 0.99 * |rts| as real)
  {
    var p95, p99 := Percentile(sorted, 0.95).value, Percentile(sorted, 0.99).value;
    PercentileOfSortedCopy(rts, sorted, 0.95, 0.95 * |rts| as real);
    assert NearestRank(rts, p95, 0.95 * |rts| as real);
    PercentileOfSortedCopy(rts, sorted, 0.99, 0.99 * |rts| as real);
    assert NearestRank(rts, p99, 0.99 * |rts| as real);
  }

  /**
    The `[STEP RESULT]` of a finished step with window `w`: the observed
    total counts both outcomes, and the percentiles are present exactly when
    there are enough samples, as nearest-rank values of the window.
   */
  function StepResultOf(w: Window, step: int, cfg: Config): (res: StepResult)
    ensures res.step == step
    ensures res.obsTotal == w.succ + w.fail && res.failRate == FailRate(w)
    ensures res.p95.Some? <==> |w.rts| >= SlaStepMinSamples
    ensures res.p99.Some? <==> |w.rts| >= SlaStepMinSamples
    ensures res.p95.Some? ==> res.p95.value <= res.p99.value
                              && NearestRank(w.rts, res.p95.value, 0.95 * |w.rts| as real)
                              && NearestRank(w.rts, res.p99.value, 0.99 * |w.rts| as real)
  {
    var p := StepPercentiles(w.rts);
    StepResult(step, step * cfg.stepUsers, w.succ + w.fail, FailRate(w), p.0, p.1)
  }

  /** The result of a step without any `OBSERVE` request: nothing observed, no failures, too few samples for percentiles. */
  function QuietStep(step: int, cfg: Config): StepResult
  {
    StepResult(step, step * cfg.stepUsers, 0, 0.0, None, None)
  }

  /** A step whose window stayed empty reports as a quiet step. */
  lemma EmptyWindowIsQuiet(step: int, cfg: Config)
    ensures StepResultOf(EmptyWindow, step, cfg) == QuietStep(step, cfg)
  {
  }

  /** The step breaches the SLA: its p95 was computed and is above `SLA_P95_MS`. */
  predicate Breach(res: StepResult, cfg: Config)
  {
    res.p95.Some? && res.p95.value > cfg.slaP95Ms
  }

  /**
    What a breach means for the samples: the step breaches exactly when it
    has at least `SlaStepMinSamples` response times and fewer than 95% of
    them are within the SLA.
   */
  lemma BreachMeansTooFewWithinSla(w: Window, step: int, cfg: Config)
    ensures Breach(StepResultOf(w, step, cfg), cfg)
            <==> |w.rts| >= SlaStepMinSamples
                 && (CountAtMost(w.rts, cfg.slaP95Ms) as real) < 0.95 * |w.rts| as real
  {
    var res := StepResultOf(w, step, cfg);
    if res.p95.Some? && res.p95.value <= cfg.slaP95Ms {
      CountAtMostMonotone(w.rts, res.p95.value, cfg.slaP95Ms);
    } else if res.p95.Some? {
      CountAtMostBelow(w.rts, cfg.slaP95Ms, res.p95.value);
    }
  }

  /** The `step_sla_stop_*` snapshot taken from a breaching step at time `now`. */
  function StopRecord(res: StepResult, now: real): SlaStop
    requires res.p95.Some? && res.p99.Some?
  {
    SlaStop(res.step, res.p95.value, res.p99.value, res.failRate, res.obsTotal, now)
  }

  /** The outcome of one pass of the boundary loop. */
  datatype Flush = Flush(window: Window, lastStep: int, emitted: seq<StepResult>, stop: Option<SlaStop>)

  /**
    The inner `while cur_step > self._step_last_idx` loop, started with
    window `w` and last index `last`. Steps `last`, `last + 1`, ... are
    reported in order, each once. Only the first of them sees the window's
    samples (the window is cleared after it), so only the first can breach;
    a breach leaves the window and the index as they were.
   */
  function FlushSteps(w: Window, last: int, cur: int, cfg: Config, now: real): (f: Flush)
    decreases cur - last
    ensures cur <= last ==> f == Flush(w, last, [], None)
    ensures forall i :: 0 <= i < |f.emitted| ==> f.emitted[i].step == last + i
    ensures cur > last ==> |f.emitted| >= 1 && f.emitted[0] == StepResultOf(w, last, cfg)
    ensures forall i :: 1 <= i < |f.emitted| ==> f.emitted[i] == QuietStep(last + i, cfg)
    ensures f.stop.Some? <==> cur > last && Breach(StepResultOf(w, last, cfg), cfg)
    ensures f.stop.None? ==> f.lastStep == (if cur > last then cur else last)
                             && |f.emitted| == f.lastStep - last
    ensures f.stop.None? && cur > last ==> f.window == EmptyWindow
    ensures f.stop.Some? ==> f.lastStep == last && f.window == w && |f.emitted| == 1
                             && f.stop.value == StopRecord(f.emitted[0], now)
  {
    if cur <= last then Flush(w, last, [], None)
    else
      var res := StepResultOf(w, last, cfg);
      if Breach(res, cfg) then Flush(w, last, [res], Some(StopRecord(res, now)))
      else
        var rest := FlushSteps(EmptyWindow, last + 1, cur, cfg, now);
        EmptyWindowIsQuiet(last + 1, cfg);
        var emitted := [res] + rest.emitted;
        assert forall i :: 1 <= i < |emitted| ==> emitted[i] == rest.emitted[i - 1];
        Flush(rest.window, rest.lastStep, emitted, rest.stop)
  }

  /** The fields a monitor wake-up leaves alone. */
  predicate SameRequestState(t: Tracker, r: Tracker)
  {
    && r.successCount == t.successCount && r.failureCount == t.failureCount
    && r.firstErrorTime == t.firstErrorTime && r.lastErrorTime == t.lastErrorTime
    && r.outageStart == t.outageStart && r.outages == t.outages
    && SameHosts(t, r) && r.testStart == t.testStart
  }

  /** The tracker after a boundary pass `f`: window, index and log move on; a stop ends the monitor. */
  function ApplyFlush(t: Tracker, f: Flush): (r: Tracker)
    ensures SameRequestState(t, r)
    ensures |r.stepLog| == |t.stepLog| + |f.emitted| && r.stepLog[..|t.stepLog|] == t.stepLog
    ensures r.stepLog == t.stepLog + f.emitted && r.window == f.window && r.lastStep == f.lastStep
    ensures r.slaStop == (if f.stop.Some? then f.stop else t.slaStop)
    ensures r.monitor == (if f.stop.Some? then Exited else Watching)
  {
    assert (t.stepLog + f.emitted)[..|t.stepLog|] == t.stepLog;
    t.(window := f.window, lastStep := f.lastStep, stepLog := t.stepLog + f.emitted,
       slaStop := if f.stop.Some? then f.stop else t.slaStop,
       monitor := if f.stop.Some? then Exited else Watching)
  }

  /** The monitor returns; nothing else changes. */
  function Exit(t: Tracker): (r: Tracker)
    ensures Valid(t) ==> Valid(r)
    ensures SameRequestState(t, r) && r.monitor == Exited
    ensures r.stepLog == t.stepLog && r.slaStop == t.slaStop && r.window == t.window
  {
    t.(monitor := Exited)
  }

  /** Results numbered from where a log numbered `1..n` stops extend it to a log numbered `1..n+m`. */
  lemma NumberedAppend(log: seq<StepResult>, emitted: seq<StepResult>)
    requires forall i :: 0 <= i < |log| ==> log[i].step == i + 1
    requires forall i :: 0 <= i < |emitted| ==> emitted[i].step == |log| + 1 + i
    ensures forall i :: 0 <= i < |log + emitted| ==> (log + emitted)[i].step == i + 1
  {
    var r := log + emitted;
    forall i | |log| <= i < |r| ensures r[i].step == i + 1 {
      assert r[i] == emitted[i - |log|];
    }
  }

  /** A boundary pass from a running monitor keeps the step log numbered `1..n`. */
  lemma ApplyFlushKeepsValid(t: Tracker, cfg: Config, cur: int, now: real)
    requires Valid(t) && t.monitor == Watching && t.slaStop.None?
    ensures Valid(ApplyFlush(t, FlushSteps(t.window, t.lastStep, cur, cfg, now)))
  {
    var f := FlushSteps(t.window, t.lastStep, cur, cfg, now);
    var r := ApplyFlush(t, f);
    NumberedAppend(t.stepLog, f.emitted);
    if f.stop.None? && cur > t.lastStep {
      assert f.window == EmptyWindow;
    }
  }

  /** The wake-up finds a running monitor with a live runner, so it computes the current step. */
  predicate Polling(t: Tracker, cfg: Config, runner: Option<RunState>)
  {
    && t.monitor == Watching && t.testStart.Some?
    && runner.Some? && runner.value != Stopping && runner.value != Stopped
    && cfg.stepTime != 0
  }

  /**
    What a boundary pass with the run in step `cur` leaves behind: nothing
    changes while no boundary was crossed; otherwise either the first
    finished step breaches and the monitor stops at it with one more result,
    or every crossed step is reported and the monitor moves on to step `cur`
    with an empty window.
   */
  predicate FlushedUpTo(t: Tracker, r: Tracker, cfg: Config, cur: int)
  {
    && (cur <= t.lastStep ==> r == t.(monitor := Watching))
    && (r.monitor == Exited <==> cur > t.lastStep && Breach(StepResultOf(t.window, t.lastStep, cfg), cfg))
    && (r.monitor == Watching ==>
          && r.lastStep == (if cur > t.lastStep then cur else t.lastStep)
          && |r.stepLog| == |t.stepLog| + (r.lastStep - t.lastStep)
          && r.slaStop == t.slaStop
          && (cur > t.lastStep ==> r.window == EmptyWindow))
    && (r.monitor == Exited ==>
          && r.lastStep == t.lastStep && r.window == t.window
          && |r.stepLog| == |t.stepLog| + 1
          && r.slaStop.Some? && r.slaStop.value.step == t.lastStep
          && r.slaStop.value.p95 > cfg.slaP95Ms)
  }

  /** The boundary pass of a wake-up at `now`, in the step that `now` falls in. */
  function Advance(t: Tracker, cfg: Config, now: real): (r: Tracker)
    requires t.testStart.Some? && cfg.stepTime != 0
    ensures Valid(t) && t.monitor == Watching && t.slaStop.None? ==> Valid(r)
    ensures SameRequestState(t, r)
    ensures |r.stepLog| >= |t.stepLog| && r.stepLog[..|t.stepLog|] == t.stepLog
    ensures FlushedUpTo(t, r, cfg, StepOf(now - t.testStart.value, cfg.stepTime))
  {
    var cur := StepOf(now - t.testStart.value, cfg.stepTime);
    var r := ApplyFlush(t, FlushSteps(t.window, t.lastStep, cur, cfg, now));
    assert Valid(t) && t.monitor == Watching && t.slaStop.None? ==> Valid(r) by {
      if Valid(t) && t.monitor == Watching && t.slaStop.None? {
        ApplyFlushKeepsValid(t, cfg, cur, now);
      }
    }
    r
  }

  /**
    The results a boundary pass appends to the log: the first is the
    window's own step result for step `t.lastStep`, every later one the
    quiet result of an empty step after it.
   */
  predicate LogsFigures(t: Tracker, r: Tracker, cfg: Config)
  {
    var n := |t.stepLog|;
    forall i :: n <= i < |r.stepLog| ==>
      r.stepLog[i] == if i == n then StepResultOf(t.window, t.lastStep, cfg) else QuietStep(t.lastStep + (i - n), cfg)
  }

  /** Appending a first result and quiet steps after it puts them at their shifted positions in the log. */
  lemma AppendedFigures(log: seq<StepResult>, emitted: seq<StepResult>, first: StepResult, last: int, cfg: Config)
    requires |emitted| > 0 ==> emitted[0] == first
    requires forall i :: 1 <= i < |emitted| ==> emitted[i] == QuietStep(last + i, cfg)
    ensures forall i :: |log| <= i < |log + emitted| ==>
              (log + emitted)[i] == if i == |log| then first else QuietStep(last + (i - |log|), cfg)
  {
    var r := log + emitted;
    forall i | |log| <= i < |r| ensures r[i] == if i == |log| then first else QuietStep(last + (i - |log|), cfg) {
      assert r[i] == emitted[i - |log|];
    }
  }

  /**
    A pass in step `cur` past the last index reports at least one result,
    and a breach of that first result is recorded as its snapshot at `now`.
   */
  predicate StopsWithSnapshot(t: Tracker, r: Tracker, cfg: Config, cur: int, now: real)
  {
    var res := StepResultOf(t.window, t.lastStep, cfg);
    && (cur > t.lastStep ==> |r.stepLog| > |t.stepLog|)
    && (cur > t.lastStep && Breach(res, cfg) ==> r.slaStop == Some(StopRecord(res, now)))
  }

  /** The figures a boundary pass in step `cur` at time `now` reports. */
  predicate ReportsFigures(t: Tracker, r: Tracker, cfg: Config, cur: int, now: real)
  {
    LogsFigures(t, r, cfg) && StopsWithSnapshot(t, r, cfg, cur, now)
  }

  lemma FlushLogsFigures(t: Tracker, cfg: Config, cur: int, now: real)
    ensures LogsFigures(t, ApplyFlush(t, FlushSteps(t.window, t.lastStep, cur, cfg, now)), cfg)
  {
    var f := FlushSteps(t.window, t.lastStep, cur, cfg, now);
    AppendedFigures(t.stepLog, f.emitted, StepResultOf(t.window, t.lastStep, cfg), t.lastStep, cfg);
  }

  /** A boundary pass logs the figures of the window and of the crossed steps, and records the breaching step's snapshot. */
  lemma FlushReportsFigures(t: Tracker, cfg: Config, cur: int, now: real)
    ensures ReportsFigures(t, ApplyFlush(t, FlushSteps(t.window, t.lastStep, cur, cfg, now)), cfg, cur, now)
  {
    FlushLogsFigures(t, cfg, cur, now);
  }

  /** The results `Advance` logs and the stop it records are the figures of the window and the crossed steps. */
  lemma AdvanceReportsFigures(t: Tracker, cfg: Config, now: real)
    requires t.testStart.Some? && cfg.stepTime != 0
    ensures ReportsFigures(t, Advance(t, cfg, now), cfg, StepOf(now - t.testStart.value, cfg.stepTime), now)
  {
    var cur := StepOf(now - t.testStart.value, cfg.stepTime);
    var r := ApplyFlush(t, FlushSteps(t.window, t.lastStep, cur, cfg, now));
    FlushReportsFigures(t, cfg, cur, now);
    assert Advance(t, cfg, now) == r;
  }

  /**
    A wake-up that flushes nothing: the monitor is not running, the runner
    does not exist yet, or the monitor returns because the runner is
    stopping or stopped or because the step division raises.
   */
  function Idle(t: Tracker, cfg: Config, runner: Option<RunState>): (r: Tracker)
    requires !Polling(t, cfg, runner)
    ensures Valid(t) ==> Valid(r)
    ensures SameRequestState(t, r)
    ensures r.stepLog == t.stepLog && r.slaStop == t.slaStop && r.window == t.window && r.lastStep == t.lastStep
    ensures t.monitor != Watching || t.testStart.None? || runner.None? ==> r == t
    ensures t.monitor == Watching && t.testStart.Some? && runner.Some? ==> r.monitor == Exited
  {
    if t.monitor != Watching || t.testStart.None? || runner.None? then t else Exit(t)
  }

  /**
    One wake-up of the monitor at time `now` with the runner in state
    `runner` (`None` while the runner does not exist yet). The monitor returns
    when the runner is stopping or stopped, or after an SLA stop; a zero
    `stepTime` raises in the division and ends the monitor's green thread.
    Otherwise the crossed step boundaries are flushed (`Advance`).
   */
  function MonitorPoll(t: Tracker, cfg: Config, runner: Option<RunState>, now: real): (r: Tracker)
    ensures Valid(t) ==> Valid(r)
    ensures SameRequestState(t, r)
    ensures t.monitor != Watching ==> r == t
    ensures runner.None? ==> r == t
    ensures Valid(t) && t.slaStop.Some? ==> r == t
    ensures |r.stepLog| >= |t.stepLog| && r.stepLog[..|t.stepLog|] == t.stepLog
    ensures Valid(t) && t.monitor == Watching && runner.Some? && (runner.value == Stopping || runner.value == Stopped)
            ==> r.monitor == Exited && r.stepLog == t.stepLog
    ensures Valid(t) && t.monitor == Watching && runner.Some? && cfg.stepTime == 0 ==> r.monitor == Exited
    ensures Polling(t, cfg, runner) ==> FlushedUpTo(t, r, cfg, StepOf(now - t.testStart.value, cfg.stepTime))
    ensures r.slaStop.Some? && t.slaStop.None? ==>
              && r.monitor == Exited && r.window == t.window
              && r.slaStop.value.p95 > cfg.slaP95Ms
              && r.slaStop.value.step == t.lastStep
              && |r.stepLog| == |t.stepLog| + 1
  {
    if Polling(t, cfg, runner) then Advance(t, cfg, now) else Idle(t, cfg, runner)
  }

  /** A wake-up with the run going on logs and records exactly the figures of `ReportsFigures`. */
  lemma MonitorPollReportsFigures(t: Tracker, cfg: Config, runner: Option<RunState>, now: real)
    requires Polling(t, cfg, runner)
    ensures ReportsFigures(t, MonitorPoll(t, cfg, runner, now), cfg, StepOf(now - t.testStart.value, cfg.stepTime), now)
  {
    AdvanceReportsFigures(t, cfg, now);
  }
}

=== FILE: step_shape.dfy ===
/**
  The optional step-wise load shape (`StepLoadShape.tick`): the user target
  grows by `stepUsers` every `stepTime` seconds until the time limit passes,
  after which the shape returns `None` and the load engine stops the run.
 */
module StepShape {
  import opened Wrappers
  import opened Settings
  import opened Arith

  /** What `tick` returns while the run goes on: the user target and the spawn rate. */
  datatype Target = Target(users: int, spawnRate: real)

  /**
    `tick()` at run time `runTime` (seconds). The time-limit test comes before
    the division, so a zero `stepTime` only raises once the limit has not passed.
   */
  function Tick(cfg: Config, runTime: real): (t: Option<Target>)
    requires runTime <= cfg.timeLimit as real ==> cfg.stepTime != 0
    ensures t.None? <==> runTime > cfg.timeLimit as real
    ensures t.Some? ==> t.value.spawnRate == cfg.spawnRate
  {
    if runTime > cfg.timeLimit as real then None
    else
      Some(Target(StepOf(runTime, cfg.stepTime) * cfg.stepUsers, cfg.spawnRate))
  }

  /**
    While the run lasts the target is a whole number of steps: step `k`
    (1-based) covers `[(k - 1) * stepTime, k * stepTime)` and asks for
    `k * stepUsers` users, so it is never below one step's worth when
    `stepUsers` is non-negative, and never above it when it is negative.
   */
  lemma TickIsStepCount(cfg: Config, runTime: real)
    requires cfg.stepTime > 0
    requires 0.0 <= runTime <= cfg.timeLimit as real
    ensures exists k: int ::
              && k >= 1
              && (k - 1) as real * cfg.stepTime as real <= runTime < k as real * cfg.stepTime as real
              && Tick(cfg, runTime).value.users == k * cfg.stepUsers
    ensures cfg.stepUsers >= 0 ==> Tick(cfg, runTime).value.users >= cfg.stepUsers
    ensures cfg.stepUsers < 0 ==> Tick(cfg, runTime).value.users <= cfg.stepUsers
  {
    var k := StepOf(runTime, cfg.stepTime);
    assert Tick(cfg, runTime).value.users == k * cfg.stepUsers;
    if cfg.stepUsers >= 0 {
      MulMonotone(1, k, cfg.stepUsers);
    } else {
      MulMonotone(1, k, -cfg.stepUsers);
    }
  }

  /** The user target never falls while the run goes on. */
  lemma TickMonotone(cfg: Config, t1: real, t2: real)
    requires cfg.stepTime > 0 && cfg.stepUsers >= 0
    requires t1 <= t2 <= cfg.timeLimit as real
    ensures Tick(cfg, t1).value.users <= Tick(cfg, t2).value.users
  {
    var st := cfg.stepTime as real;
    MulLeRight(t1, t2, 1.0 / st);
    assert t1 / st <= t2 / st;
    var k1, k2 := StepOf(t1, cfg.stepTime), StepOf(t2, cfg.stepTime);
    assert k1 <= k2;
    MulMonotone(k1, k2, cfg.stepUsers);
  }

  /**
    With the default settings (50 users more every 180 s, a 720 s limit) the
    shape starts at 50 users, reaches 250 in the fifth step that begins at
    720 s, and stops right after the limit.
   */
  lemma DefaultShapeExample()
    ensures Tick(DefaultConfig, 0.0) == Some(Target(50, 10.0))
    ensures Tick(DefaultConfig, 179.5) == Some(Target(50, 10.0))
    ensures Tick(DefaultConfig, 180.0) == Some(Target(100, 10.0))
    ensures Tick(DefaultConfig, 720.0) == Some(Target(250, 10.0))
    ensures Tick(DefaultConfig, 720.5) == None
  {
    assert StepOf(0.0, 180) == 1;
    assert StepOf(179.5, 180) == 1;
    assert StepOf(180.0, 180) == 2;
    assert StepOf(720.0, 180) == 5;
  }
}

=== FILE: tracker.dfy ===
/**
  The state of `MetricsTracker` for one run, and the request hook that
  updates it (`collect_metrics`). Only requests named `OBSERVE` count; each
  one is either a success or a failure. Failures open an outage if none is
  open and record error times; successes record the latency in the current
  step window, close an open outage, and credit the server that answered.
 */
module Tracker {
  import opened Wrappers
  import opened Settings
  import opened Classify

  /** The request name whose traffic the tracker aggregates. */
  const ObserveName := "OBSERVE"

  /** The current step's observations: response times (ms) of successes, and both counters. */
  datatype Window = Window(rts: seq<real>, succ: nat, fail: nat)

  const EmptyWindow := Window([], 0, 0)

  /** One `[STEP RESULT]` line: step index, approximate users, observed total, fail %, and percentiles if enough samples. */
  datatype StepResult = StepResult(step: int, users: int, obsTotal: nat, failRate: real,
                                   p95: Option<real>, p99: Option<real>)

  /** The `step_sla_stop_*` record kept when the step monitor stopped the run. */
  datatype SlaStop = SlaStop(step: int, p95: real, p99: real, failRate: real, obsTotal: nat, ts: real)

  /** The background step monitor: never started, running, or returned. */
  datatype MonitorState = Off | Watching | Exited

  datatype Tracker = Tracker(
    successCount: nat,
    failureCount: nat,
    firstErrorTime: Option<real>,
    lastErrorTime: Option<real>,
    outageStart: Option<real>,     // `current_outage_start`: the open outage, if any
    outages: seq<real>,            // `outage_periods`: closed outage durations (s)
    hosts: seq<string>,            // keys of `instance_hits` in insertion order
    hits: map<string, nat>,        // `instance_hits`
    firstSeen: map<string, real>,  // `server_first_seen`
    testStart: Option<real>,
    window: Window,
    lastStep: int,                 // `_step_last_idx`: the step the monitor flushes next
    monitor: MonitorState,
    stepLog: seq<StepResult>,      // the step results emitted so far
    slaStop: Option<SlaStop>       // `step_sla_stopped` and its snapshot
  )

  /** The host table: distinct hosts in first-seen order, with a hit count of at least one and a first-seen time each. */
  ghost predicate HostTableOk(t: Tracker)
  {
    && (forall i, j :: 0 <= i < j < |t.hosts| ==> t.hosts[i] != t.hosts[j])
    && (forall h :: h in t.hits <==> h in t.hosts)
    && t.firstSeen.Keys == t.hits.Keys
    && (forall h :: h in t.hits ==> t.hits[h] >= 1)
  }

  /**
    Every step is reported once, in order: the log holds steps `1..n`, and the
    monitor flushes step `n + 1` next, unless it stopped the run at step `n`.
   */
  ghost predicate StepLogOk(t: Tracker)
  {
    && (forall i :: 0 <= i < |t.stepLog| ==> t.stepLog[i].step == i + 1)
    && (t.slaStop.None? ==> t.lastStep == |t.stepLog| + 1)
    && (t.slaStop.Some? ==> t.lastStep == |t.stepLog| && t.slaStop.value.step == |t.stepLog| && t.monitor == Exited)
  }

  /** The invariant every reachable tracker keeps. */
  ghost predicate Valid(t: Tracker)
  {
    && HostTableOk(t)
    && |t.window.rts| == t.window.succ
    && StepLogOk(t)
    && (t.monitor == Watching ==> t.testStart.Some?)
  }

  function Blank(testStart: Option<real>, monitor: MonitorState): Tracker
  {
    Tracker(0, 0, None, None, None, [], [], map[], map[], testStart,
            EmptyWindow, 1, monitor, [], None)
  }

  /** The tracker as constructed, before any run started. */
  function Init(): (t: Tracker)
    ensures Valid(t)
    ensures t.successCount == 0 && t.failureCount == 0 && t.outageStart.None? && t.outages == []
    ensures t.testStart.None? && t.monitor == Off
    ensures t.firstErrorTime.None? && t.lastErrorTime.None?
    ensures t.hosts == [] && t.hits == map[] && t.firstSeen == map[]
    ensures t.window == EmptyWindow && t.lastStep == 1 && t.stepLog == [] && t.slaStop.None?
  {
    Blank(None, Off)
  }

  /**
    `reset_metrics` at test start: every counter, table and window is cleared,
    the start time recorded, and the step monitor started when the step shape
    and the SLA stop are both enabled and the green-thread spawner exists.
   */
  function Reset(cfg: Config, now: real, spawnAvailable: bool): (t: Tracker)
    ensures Valid(t)
    ensures t.successCount == 0 && t.failureCount == 0
    ensures t.outageStart.None? && t.outages == [] && t.hits == map[] && t.slaStop.None?
    ensures t.firstErrorTime.None? && t.lastErrorTime.None?
    ensures t.hosts == [] && t.firstSeen == map[] && t.stepLog == []
    ensures t.testStart == Some(now) && t.lastStep == 1 && t.window == EmptyWindow
    ensures t.monitor == Watching <==> cfg.useStepShape && cfg.enableStepSlaStop && spawnAvailable
  {
    Blank(Some(now), if cfg.useStepShape && cfg.enableStepSlaStop && spawnAvailable then Watching else Off)
  }

  /** The hit count of `id`, zero when unseen (`defaultdict(int)`). */
  function HitsOf(t: Tracker, id: string): nat
  {
    if id in t.hits then t.hits[id] else 0
  }

  /** `instance_hits[id] += 1`, and the first-seen time on first sight. */
  function RecordHit(t: Tracker, id: string, now: real): (r: Tracker)
    ensures HostTableOk(t) ==> HostTableOk(r)
    ensures Valid(t) ==> Valid(r)
    ensures r.hits == t.hits[id := HitsOf(t, id) + 1]
    ensures r.firstSeen == if id in t.firstSeen then t.firstSeen else t.firstSeen[id := now]
    ensures r.hosts == if id in t.hits then t.hosts else t.hosts + [id]
    ensures r == t.(hits := r.hits, firstSeen := r.firstSeen, hosts := r.hosts)
  {
    var r := t.(hits := t.hits[id := HitsOf(t, id) + 1],
                firstSeen := if id in t.firstSeen then t.firstSeen else t.firstSeen[id := now],
                hosts := if id in t.hits then t.hosts else t.hosts + [id]);
    assert HostTableOk(t) ==> forall h :: h in r.hits <==> h in r.hosts;
    r
  }

  /** The request does not touch the monitor's fields. */
  predicate SameMonitorState(t: Tracker, r: Tracker)
  {
    r.testStart == t.testStart && r.lastStep == t.lastStep && r.monitor == t.monitor
    && r.stepLog == t.stepLog && r.slaStop == t.slaStop
  }

  /** The server table is what it was. */
  predicate SameHosts(t: Tracker, r: Tracker)
  {
    r.hosts == t.hosts && r.hits == t.hits && r.firstSeen == t.firstSeen
  }

  /**
    The failure half of `collect_metrics`: count it, stamp the error times,
    open an outage unless one is open; latency and server id are not looked at.
   */
  function OnFailure(t: Tracker, now: real): (r: Tracker)
    ensures Valid(t) ==> Valid(r)
    ensures SameMonitorState(t, r) && SameHosts(t, r)
    ensures r.failureCount == t.failureCount + 1 && r.successCount == t.successCount
    ensures r.window == t.window.(fail := t.window.fail + 1)
    ensures r.firstErrorTime == (if t.firstErrorTime.None? then Some(now) else t.firstErrorTime)
    ensures r.lastErrorTime == Some(now)
    ensures r.outageStart == (if t.outageStart.None? then Some(now) else t.outageStart)
    ensures r.outages == t.outages
  {
    t.(failureCount := t.failureCount + 1,
       window := t.window.(fail := t.window.fail + 1),
       firstErrorTime := if t.firstErrorTime.None? then Some(now) else t.firstErrorTime,
       lastErrorTime := Some(now),
       outageStart := if t.outageStart.None? then Some(now) else t.outageStart)
  }

  /**
    The success half of `collect_metrics`: count it, append its latency to
    the step window, close an open outage with its duration, and credit the
    server named in the body (an empty id is ignored, as Python's `if server_id:` does).
   */
  function OnSuccess(t: Tracker, responseTime: real, serverId: Option<string>, now: real): (r: Tracker)
    ensures Valid(t) ==> Valid(r)
    ensures SameMonitorState(t, r)
    ensures r.successCount == t.successCount + 1 && r.failureCount == t.failureCount
    ensures r.window == Window(t.window.rts + [responseTime], t.window.succ + 1, t.window.fail)
    ensures r.firstErrorTime == t.firstErrorTime && r.lastErrorTime == t.lastErrorTime
    ensures r.outageStart.None?
    ensures r.outages == (if t.outageStart.Some? then t.outages + [now - t.outageStart.value] else t.outages)
    ensures serverId.Some? && serverId.value != [] ==>
              && r.hits == t.hits[serverId.value := HitsOf(t, serverId.value) + 1]
              && r.firstSeen == (if serverId.value in t.firstSeen then t.firstSeen
                                 else t.firstSeen[serverId.value := now])
              && r.hosts == (if serverId.value in t.hits then t.hosts else t.hosts + [serverId.value])
    ensures serverId.None? || serverId.value == [] ==> SameHosts(t, r)
  {
    var t1 := CountSuccess(t, responseTime, now);
    if serverId.Some? && serverId.value != [] then
      assert HitsOf(t1, serverId.value) == HitsOf(t, serverId.value);
      RecordHit(t1, serverId.value, now)
    else t1
  }

  function CountSuccess(t: Tracker, responseTime: real, now: real): (r: Tracker)
    ensures Valid(t) ==> Valid(r)
    ensures SameMonitorState(t, r) && SameHosts(t, r)
    ensures r.successCount == t.successCount + 1 && r.failureCount == t.failureCount
    ensures r.window == Window(t.window.rts + [responseTime], t.window.succ + 1, t.window.fail)
    ensures r.firstErrorTime == t.firstErrorTime && r.lastErrorTime == t.lastErrorTime
    ensures r.outageStart.None?
    ensures r.outages == (if t.outageStart.Some? then t.outages + [now - t.outageStart.value] else t.outages)
  {
    var closed := if t.outageStart.Some? then t.outages + [now - t.outageStart.value] else t.outages;
    t.(successCount := t.successCount + 1,
       window := Window(t.window.rts + [responseTime], t.window.succ + 1, t.window.fail),
       outages := closed,
       outageStart := None)
  }

  /**
    `collect_metrics` for one completed request at wall-clock time `now`:
    requests not named `OBSERVE` leave the tracker as it is; every `OBSERVE`
    request moves exactly one of the two counters, in the run totals and in
    the step window.
   */
  function CollectMetrics(t: Tracker, name: string, responseTime: real, response: Option<Response>,
                          exception: Option<string>, now: real, search: string -> Option<string>): (r: Tracker)
    ensures Valid(t) ==> Valid(r)
    ensures name != ObserveName ==> r == t
    ensures SameMonitorState(t, r)
    ensures name == ObserveName ==>
              && r.successCount + r.failureCount == t.successCount + t.failureCount + 1
              && r.window.succ + r.window.fail == t.window.succ + t.window.fail + 1
              && (r.failureCount == t.failureCount + 1 <==> IsFailure(exception, response))
              && (r.window.fail == t.window.fail + 1 <==> IsFailure(exception, response))
    ensures name == ObserveName && IsFailure(exception, response) ==> r == OnFailure(t, now)
    ensures name == ObserveName && !IsFailure(exception, response) ==>
              r == OnSuccess(t, responseTime, ServerIdOf(response, search), now)
  {
    if name != ObserveName then t
    else if IsFailure(exception, response) then OnFailure(t, now)
    else OnSuccess(t, responseTime, ServerIdOf(response, search), now)
  }

  /**
    `_flush_outage_state` at run end: an open outage is closed at `now`;
    afterwards no outage is open.
   */
  function FlushOutage(t: Tracker, now: real): (r: Tracker)
    ensures r.outageStart.None?
    ensures t.outageStart.Some? ==> r.outages == t.outages + [now - t.outageStart.value]
    ensures t.outageStart.None? ==> r == t
    ensures r == t.(outages := r.outages, outageStart := None)
  {
    if t.outageStart.Some? then
      t.(outages := t.outages + [now - t.outageStart.value], outageStart := None)
    else t
  }

  /** Flushing twice appends nothing the second time. */
  lemma FlushOutageTwice(t: Tracker, now: real, later: real)
    ensures FlushOutage(FlushOutage(t, now), later) == FlushOutage(t, now)
    ensures |FlushOutage(t, now).outages| <= |t.outages| + 1
  {
  }
}

=== FILE: wrappers.dfy ===
/** The optional value used wherever the harness uses Python's `None`. */
module Wrappers {

  datatype Option<+T> = None | Some(value: T)
}
